=== FILE: README.md ===
# Board state of SightlessKnight, in Dafny

This project models the rule-state part of `Board`, the class that holds a
SightlessKnight chess position. The position is 64 squares, indexed
`x + 8 * y`, each empty or holding a piece. A piece has a team, a type, a
`hasMoved` flag and the move number of its last double pawn push. The
position also tracks:

- the squares of both kings;
- the last move (`lastFrom`, `lastTo`);
- the piece the last relocation overwrote (`lastRemoved`);
- the last double-pushing pawn of each team.

The modelled operations are:

- `getKing` and `getPiece`;
- the raw relocation `movePieceWithoutSpecialMoves` and its public form
  `tryMovingPieces`;
- `removePiece`;
- `movePiece`, with its castling, double-push, en-passant and marking
  steps;
- the single-level `undoMove`;
- `getPointFromArrayIndex` and `isInBounds`;
- the constructor's choice of the initial king squares.

The Java class mutates one array and shared piece objects. The model is a
pure function from one `BoardState` value to the next. Piece objects
become values. The only place where object identity matters is inside
`movePiece`: the writes to the moved piece's stamp and `hasMoved` flag
reach that object wherever the rook hop or the en-passant removal left it.
There, a `Holder` (a square, the `lastRemoved` slot, or "no longer
reachable") follows the moved piece through the steps.

Java `int` values are `int32`, and `GameState.moveNumber - 1` wraps at the
bottom of the range. `%` and `/` in `getPointFromArrayIndex` truncate
toward zero, as Java's do. The static `GameState.moveNumber` and
`GameState.playerTeam` are parameters. A null `from` or `to` is a `None`.

Modules:

- `JavaInt` (`java_int.dfy`): `int32`, wrap-around decrement, truncating
  division by eight.
- `Geometry` (`geometry.dfy`): squares, bounds, the index bijection.
- `Pieces` (`pieces.dfy`): team, type and piece record.
- `Board` (`board.dfy`): the state and every operation.
- `BoardProperties` and `MoveProperties` (`board_properties.dfy`): what a
  move and an undo do, square by square.
- `Material` (`material.dfy`): how many pieces each operation loses.
- `EnPassantFinding` (`findings.dfy`): the en-passant test as written and
  as corrected.
- `CastlingFinding` (`castling_finding.dfy`): the castling rook hop as
  written and as corrected, on a black player's board.

Where the usual chess rules and the code disagree, the model follows
the code:

- The code's en-passant test checks only the stamp of the piece beside the
  mover, not that it is an enemy pawn (see Findings).
- When the player is black, the tracked king squares are (3, 7) for white
  and (3, 0) for black, as on a board turned round. The castling rook hop
  still runs on rank 0 for a white king and rank 7 for a black one. If the
  pieces stand to match the tracked kings, that is the other team's back
  rank (see Findings). The pieces are laid out by code that is not part of
  this model.
- `undoMove` does not restore the position exactly:
  - the mover keeps `hasMoved` and any new stamp;
  - a castled rook stays where the castle put it;
  - a pawn removed en passant stays removed;
  - the double-push records and the recorded last move are not reverted.

## Model

| member | source | states |
|---|---|---|
| `Board.InitialKingSquares` | core/src/lukas/sobotik/sightlessknight/Board.java:57-63 | Both kings are tracked on file 4 for a white player and on file 3 for a black player. The player's king is tracked on rank 0 and the opponent's on rank 7. |
| `Board.NewBoard` | core/src/lukas/sobotik/sightlessknight/Board.java:57-66 | A new board is well formed and holds the given squares. The kings are tracked on file 4 (white player) or file 3 (black player), the player's on rank 0 and the other on rank 7. `lastFrom`, `lastTo`, `lastRemoved` and both double-push records start empty, so an immediate undo has nothing to undo. |
| `Board.GetPiece` | core/src/lukas/sobotik/sightlessknight/Board.java:140-145 | A square off the board reads as empty. |
| `BoardProperties.GetPieceReadsEverySlot` | core/src/lukas/sobotik/sightlessknight/Board.java:140-145 | Every array slot `i` is what `getPiece` returns for `getPointFromArrayIndex(i)`, so the two agree on all 64 squares. |
| `Board.RemovePiece` | core/src/lukas/sobotik/sightlessknight/Board.java:201-206 | Off the board nothing changes. On it, only that square's slot becomes empty, and no other field changes. |
| `BoardProperties.RemovePieceBySquare` | core/src/lukas/sobotik/sightlessknight/Board.java:201-206 | Square by square, only the named square reads empty afterwards. Removing twice equals removing once. |
| `Material.RemovePieceCount` | core/src/lukas/sobotik/sightlessknight/Board.java:201-206 | `removePiece` loses one piece exactly when the square held one. |
| `Board.MovePieceWithoutSpecialMoves` | core/src/lukas/sobotik/sightlessknight/Board.java:189-200 | `from` ends empty and `to` holds what `from` held (unless they are the same square). Every other slot is unchanged. `lastRemoved` is the old occupant of `to`. A tracked king square equal to `from` becomes `to`, white's checked first. Nothing else changes. |
| `BoardProperties.RelocationAt` | core/src/lukas/sobotik/sightlessknight/Board.java:183-200 | At any square, the raw relocation and `tryMovingPieces` read the same: empty at `from`, the old `from` occupant at `to`, unchanged elsewhere. |
| `BoardProperties.RelocationBySquare` | core/src/lukas/sobotik/sightlessknight/Board.java:196-199 | The same square-by-square effect of a raw relocation, for all squares at once. |
| `Material.RelocationCount` | core/src/lukas/sobotik/sightlessknight/Board.java:196-199 | A raw relocation loses exactly the old occupant of `to`, also when `from == to`. Counting `lastRemoved` as well, no piece is lost. |
| `Board.TryMovingPieces` | core/src/lukas/sobotik/sightlessknight/Board.java:183-188 | It is the raw relocation followed by recording `from`/`to` as the last move, and nothing else. |
| `Board.CastlingRookSquares` | core/src/lukas/sobotik/sightlessknight/Board.java:155-163 | The rook hops on rank 0 for white and rank 7 for black, whatever the player's team. It goes from file 0 to 3 when the king moved toward file 0, and from file 7 to 5 otherwise. |
| `Board.Mover` | core/src/lukas/sobotik/sightlessknight/Board.java:149-152 | The piece `movePiece` goes on with is what the raw relocation left on `to`: nothing when `from == to`. |
| `Board.FollowRelocation` | core/src/lukas/sobotik/sightlessknight/Board.java:196-199 | The moved piece's new place after a raw relocation is always a valid place. |
| `BoardProperties.FollowRelocationTracksPiece` | core/src/lukas/sobotik/sightlessknight/Board.java:196-199 | The new place holds the same piece as before the relocation. It becomes unreachable exactly when the piece was already out of the array. |
| `Board.UpdateHeld` | core/src/lukas/sobotik/sightlessknight/Board.java:169-178 | A write to the moved piece's object changes that piece wherever it is held, and only it. A piece held nowhere leaves the board unchanged. |
| `Board.CastleRook` | core/src/lukas/sobotik/sightlessknight/Board.java:154-163 | A move that is not a king's two-file step changes nothing, and the moved piece stays on `to`. |
| `Board.RecordDoublePawnPush` | core/src/lukas/sobotik/sightlessknight/Board.java:165-170 | A pawn's two-rank move records `to` for its own team only and stamps the held pawn with the move number. No square other than the held one changes, and neither do the kings or the last move. Any other move changes nothing. |
| `Board.CaptureEnPassant` | core/src/lukas/sobotik/sightlessknight/Board.java:172-176 | When the test does not fire nothing changes. When it fires, only the squares change. |
| `Board.MovePiece` | core/src/lukas/sobotik/sightlessknight/Board.java:147-182 | A null `from` or `to` leaves the board unchanged. If nothing lands on `to`, the result is the bare relocation. Otherwise the last move becomes `from`/`to`. The board stays well formed. |
| `MoveProperties.OrdinaryMoveOutcome` | core/src/lukas/sobotik/sightlessknight/Board.java:147-182 | The whole effect of a move that does not castle, square by square. `from` is emptied and `to` holds the mover, marked as moved and stamped if it double-pushed. The exception is when the test removed the mover itself, which happens on a sideways move by a piece stamped with the previous move number. Then `to` holds nothing. The en-passant square is cleared exactly when the test fires. `lastRemoved` is the old occupant of `to`, and the kings are tracked as the raw relocation tracks them. The last move is `from`/`to`, and a two-rank pawn move is recorded for the mover's team only. |
| `MoveProperties.OrdinaryMovePieces` | core/src/lukas/sobotik/sightlessknight/Board.java:164-181 | The array after a move that does not castle, stated as an update of the raw relocation. |
| `MoveProperties.PushStageOrdinary` | core/src/lukas/sobotik/sightlessknight/Board.java:165-170 | After the double-push step of a move that does not castle, the mover on `to` carries the stamp and the records are set. |
| `MoveProperties.EnPassantStageOrdinary` | core/src/lukas/sobotik/sightlessknight/Board.java:172-174 | The en-passant test read after the push step equals the same test read on the board before the move. |
| `MoveProperties.FinalStageOrdinary` | core/src/lukas/sobotik/sightlessknight/Board.java:172-178 | The en-passant removal and the `hasMoved` write, for either outcome of the test. The write is lost if the removal took the mover itself. |
| `MoveProperties.CaptureAndMark` | core/src/lukas/sobotik/sightlessknight/Board.java:172-178 | With the moved piece on `to`, the en-passant step and the `hasMoved` write mark that piece and, when the test fires, empty (to.x, from.y). The write is lost if that square is `to` itself, and no other field changes. |
| `MoveProperties.CastlingOutcome` | core/src/lukas/sobotik/sightlessknight/Board.java:147-182 | The whole effect of a castling move whose `to` is not a rook square. It consists of the king move, the rook hop and the en-passant test on the king's destination. The king on `to` is marked as moved, unless the test removed the king itself (a sideways castle by a king stamped with the previous move number). Then `to` holds nothing. `lastRemoved` is what the hop overwrote. King tracking follows both relocations. The last move is the king's, and no push is recorded. |
| `MoveProperties.HoppedBySquare` | core/src/lukas/sobotik/sightlessknight/Board.java:155-163 | After the king move and the rook hop, every square reads as the castled position describes. |
| `MoveProperties.CastlingPieces` | core/src/lukas/sobotik/sightlessknight/Board.java:154-182 | For a castling destination that is not one of the rook's two squares: the array after the move, built from the hop, the en-passant step and the marking of the king. |
| `MoveProperties.CastlingFromHomeSquare` | core/src/lukas/sobotik/sightlessknight/Board.java:155-163 | In a castle from file 4 of rank 0 (white) or rank 7 (black), the corner rook lands on the square the king crossed, and the corner and the king's origin end empty. Nothing else changes. The king on `to` is marked as moved, unless the en-passant test, which then inspects `to` itself, removes it. |
| `MoveProperties.HomeCastleShape` | core/src/lukas/sobotik/sightlessknight/Board.java:155-163 | A castle from file 4 of rank 0 (white) or rank 7 (black) is a king's two-file move whose rook hops from the corner to the square the king crossed. Its en-passant square is `to` itself. After the king move and the hop, `to` holds the king and the crossed square holds the corner's old occupant. |
| `MoveProperties.HomeCastleUntouched` | core/src/lukas/sobotik/sightlessknight/Board.java:155-163 | After the king move and the rook hop of a castle from file 4, every square other than the four it involves holds its old occupant. |
| `MoveProperties.HomeCastleKing` | core/src/lukas/sobotik/sightlessknight/Board.java:172-178 | After a home castle, `to` holds the king marked as moved, or nothing if the king's own stamp equals the previous move number. |
| `MoveProperties.HomeCastleRook` | core/src/lukas/sobotik/sightlessknight/Board.java:158-161 | After a home castle, the crossed square holds the corner rook and the corner is empty. |
| `MoveProperties.HomeCastleFrame` | core/src/lukas/sobotik/sightlessknight/Board.java:147-182 | After a home castle, the king's origin is empty and the other squares are unchanged. |
| `MoveProperties.DoublePawnPushRecorded` | core/src/lukas/sobotik/sightlessknight/Board.java:165-170 | A pawn moved two ranks lands stamped with the move number and marked as moved. It is recorded for its own team, and the other team's record is untouched. |
| `MoveProperties.EnPassantClearsExactly` | core/src/lukas/sobotik/sightlessknight/Board.java:172-176 | For a move that does not castle, (to.x, from.y) is cleared exactly when the test fires. It keeps what the relocation left there otherwise, and no other square changes. |
| `Material.OrdinaryMoveCount` | core/src/lukas/sobotik/sightlessknight/Board.java:147-182 | A move that does not castle loses the old occupant of `to`, plus one more piece exactly when the en-passant test fires. |
| `MoveProperties.UndoAfterOrdinaryMove` | core/src/lukas/sobotik/sightlessknight/Board.java:208-214 | After a move that does not castle, undo puts the piece taken from `to` back. The mover returns to `from` keeping its new flags, and a square the en-passant step cleared stays empty. The exception is when the test removed the mover itself (a sideways move by a piece stamped with the previous move number). Then `from` stays empty and `to` gets its old occupant back. The last move ends reversed, `lastRemoved` is empty, and the push records stay as the move left them. |
| `BoardProperties.GetKingAfterRelocation` | core/src/lukas/sobotik/sightlessknight/Board.java:189-194 | What `getKing` (lines 136-138) answers after a raw relocation or `tryMovingPieces`. A team's tracked square becomes `to` when it was `from`. Black's does not when white's square is `from` as well, because white is compared first. |
| `MoveProperties.UndoKingTracking` | core/src/lukas/sobotik/sightlessknight/Board.java:189-194 | After undoing a move that does not castle, both tracked king squares are back exactly when the move carried white's tracked king, or landed on no tracked king square other than the one it carried. White is compared first. |
| `MoveProperties.UndoRestoresPlainMove` | core/src/lukas/sobotik/sightlessknight/Board.java:208-214 | After a move that does not castle, push two ranks or trigger the en-passant test, undo restores every square except that the mover keeps `hasMoved`. Kings are restored when no tracked king square was landed on, and the push records are unchanged. |
| `MoveProperties.UndoAfterCastlingKeepsRook` | core/src/lukas/sobotik/sightlessknight/Board.java:208-214 | Undoing a home castle brings the king back (marked as moved) but leaves the rook on the crossed square and the corner empty. `to` receives what the rook hop had overwritten. When the en-passant test removed the king (stamp equal to the previous move number), the origin stays empty. |
| `Board.UndoMove` | core/src/lukas/sobotik/sightlessknight/Board.java:208-214 | Undo fails exactly when no last move is recorded (a null dereference in the source). Otherwise, for any prior state, with f = `lastFrom` and t = `lastTo`: f receives the old occupant of t, and t receives the old `lastRemoved`. Every other square is unchanged. A tracked king on t follows to f, white's compared first. The recorded last move is reversed, `lastRemoved` becomes the old occupant of f, and the double-push records are unchanged. |
| `Geometry.Index` | core/src/lukas/sobotik/sightlessknight/Board.java:144 | The array index of a square on the board lies in 0..63. |
| `Geometry.PointFromArrayIndex` | core/src/lukas/sobotik/sightlessknight/Board.java:216-220 | The square of an index is on the board exactly when the index is in 0..63, with Java's truncating `%` and `/` for negative indices. |
| `Geometry.IndexOfPointFromArrayIndex` | core/src/lukas/sobotik/sightlessknight/Board.java:216-220 | For indices 0..63, indexing the square of `i` gives back `i`. |
| `Geometry.PointFromArrayIndexOfIndex` | core/src/lukas/sobotik/sightlessknight/Board.java:216-220 | For squares on the board, the square of a square's index is that square. |
| `Geometry.IndexInjective` | core/src/lukas/sobotik/sightlessknight/Board.java:144 | Two on-board squares share an array slot if and only if they are equal. |
| `Geometry.InBoundsIffSlot` | core/src/lukas/sobotik/sightlessknight/Board.java:230-232 | `isInBounds` holds exactly for the 64 squares `getPointFromArrayIndex` yields from array indices. |
| `JavaInt.MinusOne` | core/src/lukas/sobotik/sightlessknight/Board.java:174 | `moveNumber - 1` in 32-bit arithmetic: congruent to the mathematical difference modulo 2^32, and never equal to `moveNumber`. |
| `JavaInt.JavaDiv8` | core/src/lukas/sobotik/sightlessknight/Board.java:218 | Java's `index / 8` rounds toward zero for either sign. |
| `JavaInt.JavaRem8` | core/src/lukas/sobotik/sightlessknight/Board.java:217 | Java's `index % 8` satisfies `index == 8 * (index / 8) + index % 8` and takes the sign of `index`. |
| `EnPassantFinding.KnightBesidePushedPawn` | core/src/lukas/sobotik/sightlessknight/Board.java:173-174 | The counterexample position: a black knight on c4 and a white pawn on e4 stamped with the previous move number. |
| `EnPassantFinding.KnightMoveRemovesBystanderPawn` | core/src/lukas/sobotik/sightlessknight/Board.java:173-175 | As written, the knight's jump c4-e5 removes the pawn on e4. |
| `EnPassantFinding.MovePieceIntended` | core/src/lukas/sobotik/sightlessknight/Board.java:147-182 | `movePiece` with the corrected en-passant test. It keeps the same null, empty-mover and last-move behaviour. |
| `EnPassantFinding.IntendedMovePieces` | core/src/lukas/sobotik/sightlessknight/Board.java:164-181 | The array after a move that does not castle, under the corrected test. |
| `EnPassantFinding.IntendedCaptureIsEnPassant` | core/src/lukas/sobotik/sightlessknight/Board.java:172-176 | Corrected: apart from `from` and `to`, a move that does not castle changes at most (to.x, from.y). It clears that square only when a pawn steps one square diagonally past an enemy pawn stamped with the previous move number. |
| `EnPassantFinding.IntendedMoveCount` | core/src/lukas/sobotik/sightlessknight/Board.java:172-176 | Corrected: a move that does not castle loses one piece when it lands on an occupied square or takes en passant, and none otherwise. |
| `EnPassantFinding.KnightMoveKeepsBystanderPawn` | core/src/lukas/sobotik/sightlessknight/Board.java:173-175 | Corrected: the same knight jump leaves the pawn on e4 in place. |
| `CastlingFinding.BlackPlayerCastlingBoard` | core/src/lukas/sobotik/sightlessknight/Board.java:57-63 | A new board for a black player, with the kings tracked on (3, 7) for white and (3, 0) for black and the file-0 rooks in their corners. |
| `CastlingFinding.CastleFromDFileSeven` | core/src/lukas/sobotik/sightlessknight/Board.java:155-158 | As written, on any board with the kings tracked on (3, 7) and (3, 0): the white king's castle (3, 7) to (1, 7) moves the piece on (0, 0) onto (3, 0). The old occupant of (3, 0) goes to `lastRemoved`, `blackKing` still names (3, 0), and (0, 7) is untouched. |
| `CastlingFinding.BlackPlayerCastleTakesOwnKing` | core/src/lukas/sobotik/sightlessknight/Board.java:155-158 | As written, on the black player's board that castle puts the black rook on the black king's tracked square. The black king ends in `lastRemoved`, and the white rook stays in its corner. |
| `CastlingFinding.IntendedRookSquares` | core/src/lukas/sobotik/sightlessknight/Board.java:155-163 | Corrected: the rook comes from the corner on the side the king moved toward, on the king's own rank, and lands on the square the king crossed. |
| `CastlingFinding.RookSquaresAgreeExactlyForWhitePlayer` | core/src/lukas/sobotik/sightlessknight/Board.java:155-163 | For a two-file step from a king's starting square, the written rook squares equal the corrected ones exactly when the player is white. |
| `CastlingFinding.CastleRookIntended` | core/src/lukas/sobotik/sightlessknight/Board.java:154-163 | Corrected castling step: only squares on the king's rank change, and the moved piece stays on `to`, on that rank, or in `lastRemoved`. |
| `CastlingFinding.MovePieceCastleIntended` | core/src/lukas/sobotik/sightlessknight/Board.java:147-182 | `movePiece` with the corrected castling step. It keeps the same null, empty-mover and last-move behaviour. |
| `CastlingFinding.LaterStepsOffRank` | core/src/lukas/sobotik/sightlessknight/Board.java:165-178 | The double-push, en-passant and marking steps leave every square off the origin's rank, other than `to`, alone. |
| `CastlingFinding.IntendedMoveStaysOnRank` | core/src/lukas/sobotik/sightlessknight/Board.java:147-182 | Corrected: every move, castling or not, changes only squares on its origin's rank and `to` itself. |
| `CastlingFinding.IntendedCastleFromDFileSeven` | core/src/lukas/sobotik/sightlessknight/Board.java:155-163 | Corrected: on any board, the white king's castle (3, 7) to (1, 7) puts the rook from (0, 7) on (2, 7). It empties (0, 7) and leaves (3, 0) and (0, 0) alone. |
| `CastlingFinding.BlackPlayerCastleKeepsOtherKing` | core/src/lukas/sobotik/sightlessknight/Board.java:155-163 | Corrected: on the black player's board the same castle leaves the black king and rook where they were. |

## Left out

- Rendering is out of scope: textures, sprites, `draw`, `drawPiece`, `generateTexture`, `getPoint` and `getRectangle` (screen coordinates, floating point, libGDX).
- `Board.NewBoard` — the king squares are the ones lines 57-63 set. This assumes that `FenUtils`, which receives the same king objects at line 65, neither mutates them nor places the kings elsewhere.
- The constructor's placement of the pieces comes from `FenUtils`, which is not part of this model. `NewBoard` takes the 64 initial squares as a parameter, and the console printing is left out.
- `GameState.moveNumber` and `GameState.playerTeam` are static globals. They are parameters of `MovePiece` and `NewBoard`.
- `IntPoint2D` is treated as a value compared by coordinates. The source hands the same `from`/`to` objects to its fields, and nothing in the modelled code mutates them.
- Off-board squares are excluded by preconditions of `movePieceWithoutSpecialMoves`, `tryMovingPieces` and `movePiece`. The Java code does no bounds check there. An off-board square throws when `x + 8*y` leaves 0..63, and otherwise silently stands for another square (for example (8, 0) for (0, 1)). Neither behaviour is modelled. `undoMove` with a null last move is the `None` result instead.
- The default double-push stamp of a fresh piece is set by code that is not part of this model. Pieces carry whatever stamp the initial squares give them.
- `MoveProperties.CastlingOutcome`: stated only for a castling destination that is not one of the rook's two squares. A king's two-file step onto the rook's own square lets the hop overwrite the king, and that case is not described.
- `MoveProperties.CastlingPieces`: stated only for a castling destination that is not one of the rook's two squares, for the same reason as `CastlingOutcome`.
- `MoveProperties.UndoRestoresPlainMove`: stated only for moves that neither push two ranks nor trigger the en-passant test. For those moves `UndoAfterOrdinaryMove` gives the exact outcome, which is not a restoration.

## Findings

| source | as written | input that shows it | evidently intended | confidence | as-written member | corrected member |
|---|---|---|---|---|---|---|
| core/src/lukas/sobotik/sightlessknight/Board.java:173-175 | After any move that changes file, the piece on (to.x, from.y) is removed if its double-push stamp equals `moveNumber - 1`. The test ignores the mover's and the victim's type and team, and the length of the step. | A black knight moves c4 to e5, with a white pawn on e4 that double-pushed on the previous move number. The pawn on e4 is removed. | Remove the piece only when a pawn steps one square diagonally onto an empty square past an enemy pawn that double-pushed on the previous move. | not executed | `EnPassantFinding.KnightMoveRemovesBystanderPawn` | `EnPassantFinding.IntendedCaptureIsEnPassant` |
| core/src/lukas/sobotik/sightlessknight/Board.java:155-163 | The rook hop runs on rank 0 for a white king and rank 7 for a black one. When the player is black, the tracked king squares are (3, 7) for white and (3, 0) for black (lines 57-63), as on a board turned round. If the pieces stand to match, those ranks are the other team's back rank. Where the pieces stand is decided by `FenUtils` (line 66), which is not part of this model. | On a black player's new board, the white king castles (3, 7) to (1, 7). The black rook jumps from (0, 0) onto the black king's square (3, 0), and the black king disappears into `lastRemoved`. | Hop the rook from the corner on the king's side, on the king's own rank, to the square the king crossed. | medium, not executed | `CastlingFinding.BlackPlayerCastleTakesOwnKing` | `CastlingFinding.IntendedMoveStaysOnRank` |

=== FILE: board.dfy ===
/** The rule state of the board: 64 optional pieces laid out `x + 8 * y`, the
    tracked king squares, the single-ply undo record and the last double pawn
    pushes, with the operations that read and change them. */
module Board {
  import opened Wrappers
  import opened JavaInt
  import opened Geometry
  import opened Pieces

  datatype BoardState = BoardState(
    pieces: seq<Option<PieceInfo>>,
    whiteKing: Point,
    blackKing: Point,
    lastFrom: Option<Point>,
    lastTo: Option<Point>,
    lastRemoved: Option<PieceInfo>,
    lastMovedDoubleWhitePawn: Option<Point>,
    lastMovedDoubleBlackPawn: Option<Point>)

  /** A well-formed board: 64 squares, and an undo record that names on-board squares. */
  predicate Wf(b: BoardState) {
    && |b.pieces| == 64
    && (b.lastFrom.Some? ==> IsInBounds(b.lastFrom.value))
    && (b.lastTo.Some? ==> IsInBounds(b.lastTo.value))
  }

  /** The king squares the constructor sets from the player's team, as a pair
      (white king, black king): the player's own king is tracked on rank 0 and
      the opponent's on rank 7 of the same file, the e-file for a white player and
      the d-file for a black one (as on a board seen from black's side). */
  function InitialKingSquares(playerTeam: Team): (kings: (Point, Point))
    ensures IsInBounds(kings.0) && IsInBounds(kings.1)
    ensures kings.0.x == kings.1.x == (if playerTeam == White then 4 else 3)
    ensures (if playerTeam == White then kings.0 else kings.1).y == 0
    ensures (if playerTeam == White then kings.1 else kings.0).y == 7
  {
    if playerTeam == White then (Point(4, 0), Point(4, 7)) else (Point(3, 7), Point(3, 0))
  }

  /** The rule state right after construction. The squares come from decoding
      the start position's FEN text, which is done outside this model. No move
      has been recorded, so there is nothing to undo. */
  function NewBoard(playerTeam: Team, initial: seq<Option<PieceInfo>>): (b: BoardState)
    requires |initial| == 64
    ensures Wf(b)
    ensures b.pieces == initial
    ensures GetKing(b, playerTeam).y == 0 && GetKing(b, Opponent(playerTeam)).y == 7
    ensures b.whiteKing.x == b.blackKing.x == (if playerTeam == White then 4 else 3)
    ensures b.lastFrom == None && b.lastTo == None && b.lastRemoved == None
    ensures b.lastMovedDoubleWhitePawn == None && b.lastMovedDoubleBlackPawn == None
    ensures UndoMove(b) == None
  {
    var kings := InitialKingSquares(playerTeam);
    BoardState(initial, kings.0, kings.1, None, None, None, None, None)
  }

  /** getKing: the square tracked for a team's king. The square is followed
      by relocations, not looked up on the board. */
  function GetKing(b: BoardState, team: Team): Point {
    if team == White then b.whiteKing else b.blackKing
  }

  /** getPiece: off-board squares read as empty. */
  function GetPiece(b: BoardState, location: Point): (r: Option<PieceInfo>)
    requires Wf(b)
    ensures !IsInBounds(location) ==> r == None
  {
    if !IsInBounds(location) then None else b.pieces[Index(location)]
  }

  /** removePiece: clears one on-board square and nothing else; a no-op off the board. */
  function RemovePiece(b: BoardState, location: Point): (r: BoardState)
    requires Wf(b)
    ensures Wf(r)
    ensures !IsInBounds(location) ==> r == b
    ensures IsInBounds(location) ==> GetPiece(r, location) == None
    ensures forall i :: 0 <= i < 64 && !(IsInBounds(location) && i == Index(location)) ==>
              r.pieces[i] == b.pieces[i]
    ensures r.(pieces := b.pieces) == b
  {
    if !IsInBounds(location) then b
    else b.(pieces := b.pieces[Index(location) := None])
  }

  /** movePieceWithoutSpecialMoves: the occupant of `from` goes to `to`, the old
      occupant of `to` is kept as `lastRemoved`, and `from` ends empty (so a move
      onto its own square empties it). A tracked king square equal to `from`
      follows the move; white's is compared first. */
  function MovePieceWithoutSpecialMoves(b: BoardState, from: Point, to: Point): (r: BoardState)
    requires Wf(b) && IsInBounds(from) && IsInBounds(to)
    ensures Wf(r)
    ensures r.pieces[Index(from)] == None
    ensures from != to ==> r.pieces[Index(to)] == b.pieces[Index(from)]
    ensures forall i :: 0 <= i < 64 && i != Index(from) && i != Index(to) ==> r.pieces[i] == b.pieces[i]
    ensures r.lastRemoved == b.pieces[Index(to)]
    ensures r.whiteKing == (if from == b.whiteKing then to else b.whiteKing)
    ensures r.blackKing == (if from != b.whiteKing && from == b.blackKing then to else b.blackKing)
    ensures r.lastFrom == b.lastFrom && r.lastTo == b.lastTo
    ensures r.lastMovedDoubleWhitePawn == b.lastMovedDoubleWhitePawn
    ensures r.lastMovedDoubleBlackPawn == b.lastMovedDoubleBlackPawn
  {
    var kings :=
      if from == b.whiteKing then (to, b.blackKing)
      else if from == b.blackKing then (b.whiteKing, to)
      else (b.whiteKing, b.blackKing);
    b.(whiteKing := kings.0,
       blackKing := kings.1,
       lastRemoved := b.pieces[Index(to)],
       pieces := b.pieces[Index(to) := b.pieces[Index(from)]][Index(from) := None])
  }

  /** tryMovingPieces: a raw relocation that is also recorded as the last move. */
  function TryMovingPieces(b: BoardState, from: Point, to: Point): (r: BoardState)
    requires Wf(b) && IsInBounds(from) && IsInBounds(to)
    ensures Wf(r)
    ensures r.lastFrom == Some(from) && r.lastTo == Some(to)
    ensures r.(lastFrom := b.lastFrom, lastTo := b.lastTo) == MovePieceWithoutSpecialMoves(b, from, to)
  {
    MovePieceWithoutSpecialMoves(b, from, to).(lastFrom := Some(from), lastTo := Some(to))
  }

  /** The rook hop of castling, as (rook's square, rook's destination): files
      0 to 3 for a king moving toward file 0 and 7 to 5 otherwise, on rank 0
      for white and rank 7 for black, whatever the player's team. These are the
      back ranks only when the player is white. */
  function CastlingRookSquares(team: Team, queenside: bool): (squares: (Point, Point))
    ensures IsInBounds(squares.0) && IsInBounds(squares.1)
    ensures squares.0.y == squares.1.y == (if team == White then 0 else 7)
    ensures squares.0.x == (if queenside then 0 else 7)
    ensures squares.1.x == (if queenside then 3 else 5)
  {
    var rank := if team == White then 0 else 7;
    if queenside then (Point(0, rank), Point(3, rank)) else (Point(7, rank), Point(5, rank))
  }

  /** The piece that the relocation of movePiece leaves on `to`. */
  function Mover(b: BoardState, from: Point, to: Point): (r: Option<PieceInfo>)
    requires Wf(b) && IsInBounds(from) && IsInBounds(to)
    ensures r == MovePieceWithoutSpecialMoves(b, from, to).pieces[Index(to)]
  {
    if from == to then None else b.pieces[Index(from)]
  }

  /** The condition under which movePiece runs the castling rook hop. */
  predicate IsCastling(piece: PieceInfo, from: Point, to: Point) {
    piece.kind == King && Abs(from.x - to.x) == 2
  }

  /** The condition under which movePiece records a double pawn push. */
  predicate IsDoublePawnPush(piece: PieceInfo, from: Point, to: Point) {
    piece.kind == Pawn && Abs(from.y - to.y) == 2
  }

  /** The square the en-passant test of movePiece inspects: on the destination's
      file, beside the origin. */
  function EnPassantSquare(from: Point, to: Point): Point {
    Point(to.x, from.y)
  }

  /** The en-passant test of movePiece, read on the board after the relocation,
      the rook hop and the stamp: any occupant of the inspected square stamped
      with the previous move number, provided the file changed. It checks neither
      the occupant's type nor its team, nor that the rank changed. */
  predicate EnPassantFires(b: BoardState, from: Point, to: Point, moveNumber: int32)
    requires Wf(b)
  {
    var square := EnPassantSquare(from, to);
    && GetPiece(b, square) != None
    && from.x != to.x
    && GetPiece(b, square).value.doublePawnMoveOnMoveNumber == MinusOne(moveNumber)
  }

  /** Where the moved piece of movePiece sits. The source holds a reference to
      that piece object, so its later writes to `doublePawnMoveOnMoveNumber` and
      `hasMoved` reach it wherever the rook hop or the en-passant removal have
      put it: on a square, in `lastRemoved`, or nowhere the board can see. */
  datatype Holder = OnSquare(square: Point) | InLastRemoved | Dropped

  predicate HolderWf(h: Holder) {
    h.OnSquare? ==> IsInBounds(h.square)
  }

  /** The piece a holder designates; a dropped piece is not visible. */
  function HeldPiece(b: BoardState, h: Holder): Option<PieceInfo>
    requires Wf(b) && HolderWf(h)
  {
    match h
    case OnSquare(q) => b.pieces[Index(q)]
    case InLastRemoved => b.lastRemoved
    case Dropped => None
  }

  /** Where a piece held at `h` is after a raw relocation `from` to `to`. */
  function FollowRelocation(h: Holder, from: Point, to: Point): (h': Holder)
    requires HolderWf(h) && IsInBounds(from) && IsInBounds(to)
    ensures HolderWf(h')
  {
    match h
    case OnSquare(q) => if q == to then InLastRemoved else if q == from then OnSquare(to) else h
    case InLastRemoved => Dropped
    case Dropped => Dropped
  }

  /** The two writes movePiece makes to the fields of the moved piece. */
  datatype FieldWrite = StampDoublePush(moveNumber: int32) | MarkMoved

  function Apply(w: FieldWrite, p: PieceInfo): PieceInfo {
    match w
    case StampDoublePush(n) => p.(doublePawnMoveOnMoveNumber := n)
    case MarkMoved => p.(hasMoved := true)
  }

  /** A write to the fields of the held piece; every other part of the board is unchanged. */
  function UpdateHeld(b: BoardState, h: Holder, w: FieldWrite): (r: BoardState)
    requires Wf(b) && HolderWf(h)
    ensures Wf(r)
    ensures HeldPiece(b, h).Some? ==> HeldPiece(r, h) == Some(Apply(w, HeldPiece(b, h).value))
    ensures HeldPiece(b, h).None? ==> r == b
    ensures h.OnSquare? && HeldPiece(b, h).Some? ==>
              r == b.(pieces := b.pieces[Index(h.square) := Some(Apply(w, HeldPiece(b, h).value))])
    ensures !h.OnSquare? ==> r.pieces == b.pieces
    ensures h != InLastRemoved ==> r.lastRemoved == b.lastRemoved
    ensures r.(pieces := b.pieces, lastRemoved := b.lastRemoved) == b
  {
    match h
    case OnSquare(q) =>
      var i := Index(q);
      if b.pieces[i].Some? then b.(pieces := b.pieces[i := Some(Apply(w, b.pieces[i].value))]) else b
    case InLastRemoved =>
      if b.lastRemoved.Some? then b.(lastRemoved := Some(Apply(w, b.lastRemoved.value))) else b
    case Dropped => b
  }

  /** The castling step of movePiece: a king that moved two files triggers a
      rook hop, through tryMovingPieces, on rank 0 for white or rank 7 for black
      (from the file-0 corner when it moved toward file 0), wherever the king
      stands. Answers the board and where the moved piece now is. */
  function CastleRook(b: BoardState, piece: PieceInfo, from: Point, to: Point): (r: (BoardState, Holder))
    requires Wf(b) && IsInBounds(from) && IsInBounds(to)
    ensures Wf(r.0) && HolderWf(r.1)
    ensures !IsCastling(piece, from, to) ==> r == (b, OnSquare(to))
  {
    if IsCastling(piece, from, to) then
      var rook := CastlingRookSquares(piece.team, from.x > to.x);
      (TryMovingPieces(b, rook.0, rook.1), FollowRelocation(OnSquare(to), rook.0, rook.1))
    else (b, OnSquare(to))
  }

  /** The double-push step of movePiece: a pawn that moved two ranks is recorded
      as its team's last double-pushed pawn and stamped with the move number. */
  function RecordDoublePawnPush(b: BoardState, h: Holder, piece: PieceInfo, from: Point, to: Point, moveNumber: int32): (r: BoardState)
    requires Wf(b) && HolderWf(h)
    ensures Wf(r)
    ensures !IsDoublePawnPush(piece, from, to) ==> r == b
    ensures IsDoublePawnPush(piece, from, to) ==>
              && r.lastMovedDoubleWhitePawn == (if piece.team == White then Some(to) else b.lastMovedDoubleWhitePawn)
              && r.lastMovedDoubleBlackPawn == (if piece.team == Black then Some(to) else b.lastMovedDoubleBlackPawn)
    ensures IsDoublePawnPush(piece, from, to) && HeldPiece(b, h).Some? ==>
              HeldPiece(r, h) == Some(HeldPiece(b, h).value.(doublePawnMoveOnMoveNumber := moveNumber))
    ensures forall i :: 0 <= i < 64 && !(h.OnSquare? && i == Index(h.square)) ==> r.pieces[i] == b.pieces[i]
    ensures h != InLastRemoved ==> r.lastRemoved == b.lastRemoved
    ensures r.whiteKing == b.whiteKing && r.blackKing == b.blackKing
    ensures r.lastFrom == b.lastFrom && r.lastTo == b.lastTo
  {
    if IsDoublePawnPush(piece, from, to) then
      var recorded := b.(
        lastMovedDoubleWhitePawn := if piece.team == White then Some(to) else b.lastMovedDoubleWhitePawn,
        lastMovedDoubleBlackPawn := if piece.team == Black then Some(to) else b.lastMovedDoubleBlackPawn);
      UpdateHeld(recorded, h, StampDoublePush(moveNumber))
    else b
  }

  /** The en-passant step of movePiece, given the outcome of its test: when the
      test fires the inspected square is cleared, and if the moved piece stood
      there it is gone. */
  function CaptureEnPassant(b: BoardState, h: Holder, from: Point, to: Point, fires: bool): (r: (BoardState, Holder))
    requires Wf(b) && HolderWf(h)
    ensures Wf(r.0) && HolderWf(r.1)
    ensures !fires ==> r == (b, h)
    ensures r.0.(pieces := b.pieces) == b
  {
    var square := EnPassantSquare(from, to);
    if fires then
      (RemovePiece(b, square), if h == OnSquare(square) then Dropped else h)
    else (b, h)
  }

  /** movePiece. A missing square (null in the source) leaves the board as it
      is. Otherwise the piece is relocated raw; if nothing arrived on `to` the
      method stops there. Else, in this order: the castling step, the
      double-push step, the en-passant step; then the moved piece is marked as
      moved and the mover's own `from`/`to` become the last move. */
  function MovePiece(b: BoardState, from: Option<Point>, to: Option<Point>, moveNumber: int32): (r: BoardState)
    requires Wf(b)
    requires from.Some? && to.Some? ==> IsInBounds(from.value) && IsInBounds(to.value)
    ensures Wf(r)
    ensures from.None? || to.None? ==> r == b
    ensures from.Some? && to.Some? && Mover(b, from.value, to.value).None? ==>
              r == MovePieceWithoutSpecialMoves(b, from.value, to.value)
    ensures from.Some? && to.Some? && Mover(b, from.value, to.value).Some? ==>
              r.lastFrom == from && r.lastTo == to
  {
    if from.None? || to.None? then b
    else
      var f, t := from.value, to.value;
      var moved := MovePieceWithoutSpecialMoves(b, f, t);
      match moved.pieces[Index(t)]
      case None => moved
      case Some(piece) =>
        var castled := CastleRook(moved, piece, f, t);
        var pushed := RecordDoublePawnPush(castled.0, castled.1, piece, f, t, moveNumber);
        var captured := CaptureEnPassant(pushed, castled.1, f, t, EnPassantFires(pushed, f, t, moveNumber));
        UpdateHeld(captured.0, captured.1, MarkMoved).(lastFrom := Some(f), lastTo := Some(t))
  }

  /** undoMove: relocates the piece on `lastTo` back to `lastFrom` (recording
      that as the last move, which swaps the two), then puts the previously
      removed piece back on the square it was taken from. With no recorded move
      the source dereferences null; the model answers None. */
  function UndoMove(b: BoardState): (r: Option<BoardState>)
    requires Wf(b)
    ensures r.None? <==> b.lastFrom.None? || b.lastTo.None?
    ensures r.Some? ==> Wf(r.value) && r.value.lastFrom == b.lastTo && r.value.lastTo == b.lastFrom
    ensures r.Some? ==> r.value.lastRemoved == b.pieces[Index(b.lastFrom.value)]
    ensures r.Some? ==>
              var f, t := b.lastFrom.value, b.lastTo.value;
              forall q :: IsInBounds(q) ==>
                GetPiece(r.value, q) == (if q == t then b.lastRemoved else if q == f then GetPiece(b, t) else GetPiece(b, q))
    ensures r.Some? ==>
              var f, t := b.lastFrom.value, b.lastTo.value;
              && r.value.whiteKing == (if t == b.whiteKing then f else b.whiteKing)
              && r.value.blackKing == (if t != b.whiteKing && t == b.blackKing then f else b.blackKing)
    ensures r.Some? ==>
              && r.value.lastMovedDoubleWhitePawn == b.lastMovedDoubleWhitePawn
              && r.value.lastMovedDoubleBlackPawn == b.lastMovedDoubleBlackPawn
  {
    if b.lastFrom.None? || b.lastTo.None? then None
    else
      var temp := b.lastRemoved;
      var back := TryMovingPieces(b, b.lastTo.value, b.lastFrom.value);
      Some(back.(pieces := back.pieces[Index(back.lastFrom.value) := temp]))
  }
}

=== FILE: board_properties.dfy ===
/** Properties of the board operations that relate several calls, or state a
    single call's effect square by square. */
module BoardProperties {
  import opened Wrappers
  import opened Geometry
  import opened Pieces
  import opened Board

  /** getPiece reads every array slot at the square getPointFromArrayIndex gives for it. */
  lemma GetPieceReadsEverySlot(b: BoardState)
    requires Wf(b)
    ensures forall i :: 0 <= i < 64 ==> GetPiece(b, PointFromArrayIndex(i)) == b.pieces[i]
  {
    forall i | 0 <= i < 64
      ensures GetPiece(b, PointFromArrayIndex(i)) == b.pieces[i]
    {
      IndexOfPointFromArrayIndex(i);
    }
  }

  /** removePiece, square by square: only the named square reads empty afterwards,
      and removing twice is removing once. */
  lemma RemovePieceBySquare(b: BoardState, location: Point)
    requires Wf(b)
    ensures forall q :: GetPiece(RemovePiece(b, location), q) ==
              if q == location then None else GetPiece(b, q)
    ensures RemovePiece(RemovePiece(b, location), location) == RemovePiece(b, location)
  {
    var r := RemovePiece(b, location);
    forall q
      ensures GetPiece(r, q) == if q == location then None else GetPiece(b, q)
    {
      if IsInBounds(q) && IsInBounds(location) {
        IndexInjective(q, location);
      }
    }
  }

  /** movePieceWithoutSpecialMoves at one square. */
  lemma RelocationAt(b: BoardState, from: Point, to: Point, q: Point)
    requires Wf(b) && IsInBounds(from) && IsInBounds(to) && IsInBounds(q)
    ensures GetPiece(MovePieceWithoutSpecialMoves(b, from, to), q) ==
            (if q == from then None else if q == to then GetPiece(b, from) else GetPiece(b, q))
    ensures GetPiece(TryMovingPieces(b, from, to), q) == GetPiece(MovePieceWithoutSpecialMoves(b, from, to), q)
  {
    IndexInjective(q, from);
    IndexInjective(q, to);
  }

  /** movePieceWithoutSpecialMoves, square by square: `from` reads empty, `to`
      reads what `from` held, and every other square is unchanged. */
  lemma RelocationBySquare(b: BoardState, from: Point, to: Point)
    requires Wf(b) && IsInBounds(from) && IsInBounds(to)
    ensures forall q :: IsInBounds(q) ==>
              GetPiece(MovePieceWithoutSpecialMoves(b, from, to), q) ==
              (if q == from then None else if q == to then GetPiece(b, from) else GetPiece(b, q))
  {
    forall q | IsInBounds(q)
      ensures GetPiece(MovePieceWithoutSpecialMoves(b, from, to), q) ==
              if q == from then None else if q == to then GetPiece(b, from) else GetPiece(b, q)
    {
      RelocationAt(b, from, to, q);
    }
  }

  /** getKing after a raw relocation: a team's tracked square follows the
      move when it was `from`, except black's when white's square is `from`
      as well, since white's is compared first. tryMovingPieces tracks the
      same way. */
  lemma GetKingAfterRelocation(b: BoardState, from: Point, to: Point, team: Team)
    requires Wf(b) && IsInBounds(from) && IsInBounds(to)
    ensures GetKing(MovePieceWithoutSpecialMoves(b, from, to), team) ==
            (if from == GetKing(b, team) && (team == White || from != GetKing(b, White)) then to
             else GetKing(b, team))
    ensures GetKing(TryMovingPieces(b, from, to), team) == GetKing(MovePieceWithoutSpecialMoves(b, from, to), team)
  {
  }

  /** A holder keeps designating the same piece across a raw relocation, unless
      the relocation dropped it. */
  lemma FollowRelocationTracksPiece(b: BoardState, h: Holder, from: Point, to: Point)
    requires Wf(b) && HolderWf(h) && IsInBounds(from) && IsInBounds(to)
    ensures var h' := FollowRelocation(h, from, to);
            h' != Dropped ==> HeldPiece(MovePieceWithoutSpecialMoves(b, from, to), h') == HeldPiece(b, h)
    ensures FollowRelocation(h, from, to) == Dropped <==> !h.OnSquare?
  {
    if h.OnSquare? && h.square != to && h.square != from {
      IndexInjective(h.square, from);
      IndexInjective(h.square, to);
    }
  }
}

module MoveProperties {
  import opened Wrappers
  import opened JavaInt
  import opened Geometry
  import opened Pieces
  import opened Board
  import opened BoardProperties

  /** The en-passant test of movePiece for a move that does not castle, read off
      the board before the move. After the relocation the inspected square holds
      what it held before, except when it is `to` itself (the file changes, so it
      is never `from`), where it holds the mover. */
  predicate EnPassantBefore(b: BoardState, from: Point, to: Point, moveNumber: int32)
    requires Wf(b) && IsInBounds(from) && IsInBounds(to)
  {
    var square := EnPassantSquare(from, to);
    var occupant := if square == to then GetPiece(b, from) else GetPiece(b, square);
    && from.x != to.x
    && occupant.Some?
    && occupant.value.doublePawnMoveOnMoveNumber == MinusOne(moveNumber)
  }

  /** The mover as it stands on `to` after a move that does not castle: marked
      as moved, and stamped with the move number when it made a double pawn push. */
  function Landed(piece: PieceInfo, from: Point, to: Point, moveNumber: int32): PieceInfo {
    piece.(hasMoved := true,
           doublePawnMoveOnMoveNumber :=
             if IsDoublePawnPush(piece, from, to) then moveNumber else piece.doublePawnMoveOnMoveNumber)
  }

  /** The whole effect of a movePiece that does not castle. Squares: `from`
      empties, `to` receives the marked mover, and the en-passant square empties
      when the test fires; nothing else changes. When that square is `to` itself
      (a sideways move by a piece stamped with the previous move number), the
      test removes the mover and `to` ends empty. The old occupant of `to` becomes
      `lastRemoved`, king tracking is that of the relocation, the move is
      recorded, and a double pawn push is recorded for the mover's team only. */
  lemma OrdinaryMoveOutcome(b: BoardState, from: Point, to: Point, moveNumber: int32)
    requires Wf(b) && IsInBounds(from) && IsInBounds(to)
    requires from != to && GetPiece(b, from).Some? && !IsCastling(GetPiece(b, from).value, from, to)
    ensures var piece := GetPiece(b, from).value;
            var r := MovePiece(b, Some(from), Some(to), moveNumber);
            var captures := EnPassantBefore(b, from, to, moveNumber);
            && (forall q :: IsInBounds(q) ==>
                  GetPiece(r, q) ==
                  (if captures && q == EnPassantSquare(from, to) then None
                   else if q == from then None
                   else if q == to then Some(Landed(piece, from, to, moveNumber))
                   else GetPiece(b, q)))
            && r.lastRemoved == GetPiece(b, to)
            && r.whiteKing == MovePieceWithoutSpecialMoves(b, from, to).whiteKing
            && r.blackKing == MovePieceWithoutSpecialMoves(b, from, to).blackKing
            && r.lastFrom == Some(from) && r.lastTo == Some(to)
            && r.lastMovedDoubleWhitePawn ==
               (if IsDoublePawnPush(piece, from, to) && piece.team == White then Some(to)
                else b.lastMovedDoubleWhitePawn)
            && r.lastMovedDoubleBlackPawn ==
               (if IsDoublePawnPush(piece, from, to) && piece.team == Black then Some(to)
                else b.lastMovedDoubleBlackPawn)
  {
    var piece := GetPiece(b, from).value;
    var r := MovePiece(b, Some(from), Some(to), moveNumber);
    var square := EnPassantSquare(from, to);
    var captures := EnPassantBefore(b, from, to, moveNumber);
    OrdinaryMovePieces(b, from, to, moveNumber);
    RelocationBySquare(b, from, to);
    forall q | IsInBounds(q)
      ensures GetPiece(r, q) ==
              (if captures && q == square then None
               else if q == from then None
               else if q == to then Some(Landed(piece, from, to, moveNumber))
               else GetPiece(b, q))
    {
      IndexInjective(q, to);
      IndexInjective(q, square);
    }
  }

  /** The array and the other fields after a movePiece that does not castle. */
  lemma OrdinaryMovePieces(b: BoardState, from: Point, to: Point, moveNumber: int32)
    requires Wf(b) && IsInBounds(from) && IsInBounds(to)
    requires from != to && GetPiece(b, from).Some? && !IsCastling(GetPiece(b, from).value, from, to)
    ensures var piece := GetPiece(b, from).value;
            var moved := MovePieceWithoutSpecialMoves(b, from, to);
            var r := MovePiece(b, Some(from), Some(to), moveNumber);
            var square := EnPassantSquare(from, to);
            var landed := moved.pieces[Index(to) := Some(Landed(piece, from, to, moveNumber))];
            && r.pieces == (if EnPassantBefore(b, from, to, moveNumber) then landed[Index(square) := None] else landed)
            && r.lastRemoved == moved.lastRemoved
            && r.whiteKing == moved.whiteKing && r.blackKing == moved.blackKing
            && r.lastFrom == Some(from) && r.lastTo == Some(to)
            && r.lastMovedDoubleWhitePawn ==
               (if IsDoublePawnPush(piece, from, to) && piece.team == White then Some(to)
                else b.lastMovedDoubleWhitePawn)
            && r.lastMovedDoubleBlackPawn ==
               (if IsDoublePawnPush(piece, from, to) && piece.team == Black then Some(to)
                else b.lastMovedDoubleBlackPawn)
  {
    var piece := GetPiece(b, from).value;
    var moved := MovePieceWithoutSpecialMoves(b, from, to);
    var pushed := RecordDoublePawnPush(moved, OnSquare(to), piece, from, to, moveNumber);
    PushStageOrdinary(b, from, to, moveNumber);
    EnPassantStageOrdinary(b, from, to, moveNumber);
    var fires := EnPassantFires(pushed, from, to, moveNumber);
    FinalStageOrdinary(b, from, to, moveNumber, fires);
    var captured := CaptureEnPassant(pushed, OnSquare(to), from, to, fires);
    assert CastleRook(moved, piece, from, to) == (moved, OnSquare(to));
    assert MovePiece(b, Some(from), Some(to), moveNumber) ==
           UpdateHeld(captured.0, captured.1, MarkMoved).(lastFrom := Some(from), lastTo := Some(to));
  }

  /** The stamped mover, before it is marked as moved. */
  function Stamped(piece: PieceInfo, from: Point, to: Point, moveNumber: int32): PieceInfo {
    piece.(doublePawnMoveOnMoveNumber := Landed(piece, from, to, moveNumber).doublePawnMoveOnMoveNumber)
  }

  lemma PushStageOrdinary(b: BoardState, from: Point, to: Point, moveNumber: int32)
    requires Wf(b) && IsInBounds(from) && IsInBounds(to)
    requires from != to && GetPiece(b, from).Some? && !IsCastling(GetPiece(b, from).value, from, to)
    ensures var piece := GetPiece(b, from).value;
            var moved := MovePieceWithoutSpecialMoves(b, from, to);
            var pushed := RecordDoublePawnPush(moved, OnSquare(to), piece, from, to, moveNumber);
            && pushed.pieces == moved.pieces[Index(to) := Some(Stamped(piece, from, to, moveNumber))]
            && pushed.(pieces := moved.pieces, lastMovedDoubleWhitePawn := moved.lastMovedDoubleWhitePawn,
                       lastMovedDoubleBlackPawn := moved.lastMovedDoubleBlackPawn) == moved
            && pushed.lastMovedDoubleWhitePawn ==
               (if IsDoublePawnPush(piece, from, to) && piece.team == White then Some(to)
                else b.lastMovedDoubleWhitePawn)
            && pushed.lastMovedDoubleBlackPawn ==
               (if IsDoublePawnPush(piece, from, to) && piece.team == Black then Some(to)
                else b.lastMovedDoubleBlackPawn)
  {
    var piece := GetPiece(b, from).value;
    var moved := MovePieceWithoutSpecialMoves(b, from, to);
    assert moved.pieces[Index(to)] == Some(piece);
    assert moved.pieces[Index(to) := Some(piece)] == moved.pieces;
  }

  lemma EnPassantStageOrdinary(b: BoardState, from: Point, to: Point, moveNumber: int32)
    requires Wf(b) && IsInBounds(from) && IsInBounds(to)
    requires from != to && GetPiece(b, from).Some? && !IsCastling(GetPiece(b, from).value, from, to)
    ensures var piece := GetPiece(b, from).value;
            var moved := MovePieceWithoutSpecialMoves(b, from, to);
            var pushed := RecordDoublePawnPush(moved, OnSquare(to), piece, from, to, moveNumber);
            EnPassantFires(pushed, from, to, moveNumber) == EnPassantBefore(b, from, to, moveNumber)
  {
    var piece := GetPiece(b, from).value;
    var moved := MovePieceWithoutSpecialMoves(b, from, to);
    var pushed := RecordDoublePawnPush(moved, OnSquare(to), piece, from, to, moveNumber);
    var square := EnPassantSquare(from, to);
    PushStageOrdinary(b, from, to, moveNumber);
    if from.x != to.x {
      if square == to {
        assert from.y == to.y;
      } else {
        IndexInjective(square, to);
        IndexInjective(square, from);
        assert pushed.pieces[Index(square)] == b.pieces[Index(square)];
      }
    }
  }

  /** The en-passant step and the `hasMoved` write, on a board whose `to`
      holds the moved piece: the write is lost when the step removed that
      piece itself. */
  lemma CaptureAndMark(b: BoardState, from: Point, to: Point, fires: bool)
    requires Wf(b) && IsInBounds(from) && IsInBounds(to) && GetPiece(b, to).Some?
    ensures var piece := GetPiece(b, to).value;
            var captured := CaptureEnPassant(b, OnSquare(to), from, to, fires);
            var done := UpdateHeld(captured.0, captured.1, MarkMoved);
            var marked := b.pieces[Index(to) := Some(piece.(hasMoved := true))];
            && done.pieces == (if fires then marked[Index(EnPassantSquare(from, to)) := None] else marked)
            && done.(pieces := b.pieces) == b
  {
    var piece := GetPiece(b, to).value;
    var square := EnPassantSquare(from, to);
    var captured := CaptureEnPassant(b, OnSquare(to), from, to, fires);
    var done := UpdateHeld(captured.0, captured.1, MarkMoved);
    var marked := b.pieces[Index(to) := Some(piece.(hasMoved := true))];
    if fires {
      if square == to {
        assert captured.1 == Dropped;
        assert done.pieces == b.pieces[Index(to) := None] == marked[Index(to) := None];
      } else {
        IndexInjective(square, to);
        assert captured.1 == OnSquare(to);
        assert captured.0.pieces == b.pieces[Index(square) := None];
        assert captured.0.pieces[Index(to)] == Some(piece);
        assert done.pieces == captured.0.pieces[Index(to) := Some(piece.(hasMoved := true))];
      }
    }
  }

  /** The en-passant step and the marking of a move that does not castle, for
      either outcome of the en-passant test. */
  lemma FinalStageOrdinary(b: BoardState, from: Point, to: Point, moveNumber: int32, fires: bool)
    requires Wf(b) && IsInBounds(from) && IsInBounds(to)
    requires from != to && GetPiece(b, from).Some? && !IsCastling(GetPiece(b, from).value, from, to)
    ensures var piece := GetPiece(b, from).value;
            var moved := MovePieceWithoutSpecialMoves(b, from, to);
            var pushed := RecordDoublePawnPush(moved, OnSquare(to), piece, from, to, moveNumber);
            var captured := CaptureEnPassant(pushed, OnSquare(to), from, to, fires);
            var done := UpdateHeld(captured.0, captured.1, MarkMoved);
            var square := EnPassantSquare(from, to);
            var landed := moved.pieces[Index(to) := Some(Landed(piece, from, to, moveNumber))];
            && done.pieces == (if fires then landed[Index(square) := None] else landed)
            && done.(pieces := pushed.pieces) == pushed
  {
    var piece := GetPiece(b, from).value;
    var moved := MovePieceWithoutSpecialMoves(b, from, to);
    var pushed := RecordDoublePawnPush(moved, OnSquare(to), piece, from, to, moveNumber);
    PushStageOrdinary(b, from, to, moveNumber);
    var stamped := Stamped(piece, from, to, moveNumber);
    CaptureAndMark(pushed, from, to, fires);
    assert pushed.pieces[Index(to) := Some(stamped.(hasMoved := true))] ==
           moved.pieces[Index(to) := Some(Landed(piece, from, to, moveNumber))];
  }

  /** The occupant of `q` once the mover has gone from `from` to `to`. */
  function AfterKingMove(b: BoardState, from: Point, to: Point, q: Point): Option<PieceInfo>
    requires Wf(b) && IsInBounds(from) && IsInBounds(to)
  {
    if !IsInBounds(q) || q == from then None
    else if q == to then GetPiece(b, from)
    else GetPiece(b, q)
  }

  /** The occupant of `q` once a castling king has moved `from` to `to` and its
      rook has hopped, before any marking or en-passant removal. */
  function CastledSquare(b: BoardState, from: Point, to: Point, q: Point): Option<PieceInfo>
    requires Wf(b) && IsInBounds(from) && IsInBounds(to) && from != to && GetPiece(b, from).Some?
  {
    var rook := CastlingRookSquares(GetPiece(b, from).value.team, from.x > to.x);
    if q == rook.0 then None
    else if q == rook.1 then AfterKingMove(b, from, to, rook.0)
    else AfterKingMove(b, from, to, q)
  }

  /** The whole effect of a castling movePiece whose destination is not one of
      the rook's squares. Squares: the king move and the rook hop (files 0 to 3
      or 7 to 5 on rank 0 for white, rank 7 for black) and nothing else, except that the
      en-passant test still runs on (to.x, from.y) and clears it when its
      occupant carries the previous move number; the king on `to` is marked as
      moved, unless that square is `to` and the test removed the king itself. The piece the rook displaced is `lastRemoved`, king tracking is
      that of the two relocations, the last move recorded is the king's, and
      no double pawn push is recorded. */
  lemma CastlingOutcome(b: BoardState, from: Point, to: Point, moveNumber: int32)
    requires Wf(b) && IsInBounds(from) && IsInBounds(to)
    requires from != to && GetPiece(b, from).Some? && IsCastling(GetPiece(b, from).value, from, to)
    requires var rook := CastlingRookSquares(GetPiece(b, from).value.team, from.x > to.x);
             to != rook.0 && to != rook.1
    ensures var king := GetPiece(b, from).value;
            var rook := CastlingRookSquares(king.team, from.x > to.x);
            var r := MovePiece(b, Some(from), Some(to), moveNumber);
            var square := EnPassantSquare(from, to);
            var captures := CastledSquare(b, from, to, square).Some? &&
                            CastledSquare(b, from, to, square).value.doublePawnMoveOnMoveNumber == MinusOne(moveNumber);
            var kings := MovePieceWithoutSpecialMoves(MovePieceWithoutSpecialMoves(b, from, to), rook.0, rook.1);
            && (forall q :: IsInBounds(q) ==>
                  GetPiece(r, q) ==
                  (if captures && q == square then None
                   else if q == to then Some(king.(hasMoved := true))
                   else CastledSquare(b, from, to, q)))
            && r.lastRemoved == AfterKingMove(b, from, to, rook.1)
            && r.whiteKing == kings.whiteKing && r.blackKing == kings.blackKing
            && r.lastFrom == Some(from) && r.lastTo == Some(to)
            && r.lastMovedDoubleWhitePawn == b.lastMovedDoubleWhitePawn
            && r.lastMovedDoubleBlackPawn == b.lastMovedDoubleBlackPawn
  {
    var king := GetPiece(b, from).value;
    var rook := CastlingRookSquares(king.team, from.x > to.x);
    var moved := MovePieceWithoutSpecialMoves(b, from, to);
    var hopped := TryMovingPieces(moved, rook.0, rook.1);
    var square := EnPassantSquare(from, to);
    var r := MovePiece(b, Some(from), Some(to), moveNumber);
    CastlingPieces(b, from, to, moveNumber);
    HoppedBySquare(b, from, to);
    RelocationBySquare(b, from, to);
    assert r.lastRemoved == moved.pieces[Index(rook.1)] == GetPiece(moved, rook.1);
    assert hopped.(lastFrom := moved.lastFrom, lastTo := moved.lastTo) ==
           MovePieceWithoutSpecialMoves(moved, rook.0, rook.1);
    var captures := EnPassantFires(hopped, from, to, moveNumber);
    assert captures == (CastledSquare(b, from, to, square).Some? &&
                        CastledSquare(b, from, to, square).value.doublePawnMoveOnMoveNumber == MinusOne(moveNumber));
    forall q | IsInBounds(q)
      ensures GetPiece(r, q) ==
              (if captures && q == square then None
               else if q == to then Some(king.(hasMoved := true))
               else CastledSquare(b, from, to, q))
    {
      IndexInjective(q, to);
      IndexInjective(q, square);
    }
  }

  /** The board after the king move and the rook hop, square by square. */
  lemma HoppedBySquare(b: BoardState, from: Point, to: Point)
    requires Wf(b) && IsInBounds(from) && IsInBounds(to) && from != to && GetPiece(b, from).Some?
    ensures var rook := CastlingRookSquares(GetPiece(b, from).value.team, from.x > to.x);
            var hopped := TryMovingPieces(MovePieceWithoutSpecialMoves(b, from, to), rook.0, rook.1);
            forall q :: IsInBounds(q) ==> GetPiece(hopped, q) == CastledSquare(b, from, to, q)
  {
    var rook := CastlingRookSquares(GetPiece(b, from).value.team, from.x > to.x);
    var moved := MovePieceWithoutSpecialMoves(b, from, to);
    forall q | IsInBounds(q)
      ensures GetPiece(TryMovingPieces(moved, rook.0, rook.1), q) == CastledSquare(b, from, to, q)
    {
      RelocationAt(moved, rook.0, rook.1, q);
      RelocationAt(b, from, to, q);
      RelocationAt(b, from, to, rook.0);
    }
  }

  /** The array and the other fields after a castling movePiece whose destination
      is not one of the rook's squares. */
  lemma CastlingPieces(b: BoardState, from: Point, to: Point, moveNumber: int32)
    requires Wf(b) && IsInBounds(from) && IsInBounds(to)
    requires from != to && GetPiece(b, from).Some? && IsCastling(GetPiece(b, from).value, from, to)
    requires var rook := CastlingRookSquares(GetPiece(b, from).value.team, from.x > to.x);
             to != rook.0 && to != rook.1
    ensures var king := GetPiece(b, from).value;
            var rook := CastlingRookSquares(king.team, from.x > to.x);
            var hopped := TryMovingPieces(MovePieceWithoutSpecialMoves(b, from, to), rook.0, rook.1);
            var r := MovePiece(b, Some(from), Some(to), moveNumber);
            var square := EnPassantSquare(from, to);
            var marked := hopped.pieces[Index(to) := Some(king.(hasMoved := true))];
            && r.pieces == (if EnPassantFires(hopped, from, to, moveNumber) then marked[Index(square) := None] else marked)
            && r.lastRemoved == hopped.lastRemoved
            && r.whiteKing == hopped.whiteKing && r.blackKing == hopped.blackKing
            && r.lastFrom == Some(from) && r.lastTo == Some(to)
            && r.lastMovedDoubleWhitePawn == b.lastMovedDoubleWhitePawn
            && r.lastMovedDoubleBlackPawn == b.lastMovedDoubleBlackPawn
  {
    var king := GetPiece(b, from).value;
    var rook := CastlingRookSquares(king.team, from.x > to.x);
    var moved := MovePieceWithoutSpecialMoves(b, from, to);
    assert moved.pieces[Index(to)] == Some(king);
    var hopped := TryMovingPieces(moved, rook.0, rook.1);
    var square := EnPassantSquare(from, to);
    assert CastleRook(moved, king, from, to) == (hopped, OnSquare(to));
    assert RecordDoublePawnPush(hopped, OnSquare(to), king, from, to, moveNumber) == hopped;
    assert hopped.pieces[Index(to)] == Some(king) by {
      IndexInjective(to, rook.0);
      IndexInjective(to, rook.1);
    }
    var captured := CaptureEnPassant(hopped, OnSquare(to), from, to, EnPassantFires(hopped, from, to, moveNumber));
    var done := UpdateHeld(captured.0, captured.1, MarkMoved);
    assert MovePiece(b, Some(from), Some(to), moveNumber) == done.(lastFrom := Some(from), lastTo := Some(to));
    CaptureAndMark(hopped, from, to, EnPassantFires(hopped, from, to, moveNumber));
  }

  /** A castle as played when the player is white: the king on file 4 of rank
      0 (white) or rank 7 (black) moves two files along that rank. */
  predicate HomeCastle(b: BoardState, from: Point, to: Point, king: PieceInfo)
    requires Wf(b)
  {
    var rank := if king.team == White then 0 else 7;
    && king.kind == King && GetPiece(b, from) == Some(king)
    && from == Point(4, rank) && (to == Point(6, rank) || to == Point(2, rank))
  }

  /** The rook's corner for a home castle toward `to`. */
  function Corner(from: Point, to: Point): Point {
    Point(if to.x == 2 then 0 else 7, from.y)
  }

  /** The square a king castling from file 4 crosses. */
  function Crossed(from: Point, to: Point): Point {
    Point(if to.x == 2 then 3 else 5, from.y)
  }

  /** A castle as played: the corner rook lands on the square the king crossed,
      the corner and the king's origin empty, and nothing else changes, except
      that the en-passant test inspects `to` itself and removes the king when
      its stamp equals the previous move number. */
  lemma CastlingFromHomeSquare(b: BoardState, from: Point, to: Point, moveNumber: int32, king: PieceInfo)
    requires Wf(b) && HomeCastle(b, from, to, king)
    ensures var r := MovePiece(b, Some(from), Some(to), moveNumber);
            && GetPiece(r, to) ==
               (if king.doublePawnMoveOnMoveNumber == MinusOne(moveNumber) then None
                else Some(king.(hasMoved := true)))
            && GetPiece(r, Crossed(from, to)) == GetPiece(b, Corner(from, to))
            && GetPiece(r, from) == None
            && GetPiece(r, Corner(from, to)) == None
            && (forall q :: IsInBounds(q) && q != from && q != to && q != Corner(from, to) && q != Crossed(from, to) ==>
                  GetPiece(r, q) == GetPiece(b, q))
  {
    HomeCastleKing(b, from, to, moveNumber, king);
    HomeCastleRook(b, from, to, moveNumber, king);
    HomeCastleFrame(b, from, to, moveNumber, king);
  }

  /** The shape of a castle from file 4 of rank 0 (white) or rank 7 (black):
      the king is the mover, the rook hops from the corner to the square the
      king crossed, and the en-passant test inspects `to` itself. After the
      king move and the hop, `to` holds the king and the crossed square the
      corner's old occupant. */
  lemma HomeCastleShape(b: BoardState, from: Point, to: Point, king: PieceInfo)
    requires Wf(b) && HomeCastle(b, from, to, king)
    ensures IsInBounds(from) && IsInBounds(to)
    ensures Mover(b, from, to) == Some(king) && IsCastling(king, from, to)
    ensures CastlingRookSquares(king.team, from.x > to.x) == (Corner(from, to), Crossed(from, to))
    ensures EnPassantSquare(from, to) == to
    ensures CastledSquare(b, from, to, to) == Some(king)
    ensures CastledSquare(b, from, to, Crossed(from, to)) == GetPiece(b, Corner(from, to))
  {
    var queenside := to.x == 2;
    assert from.x > to.x <==> queenside;
    var rank := if king.team == White then 0 else 7;
    assert CastlingRookSquares(king.team, queenside) ==
           (Point(if queenside then 0 else 7, rank), Point(if queenside then 3 else 5, rank));
    assert Mover(b, from, to) == Some(king);
    assert CastledSquare(b, from, to, to) == AfterKingMove(b, from, to, to);
    assert CastledSquare(b, from, to, Crossed(from, to)) == AfterKingMove(b, from, to, Corner(from, to));
  }

  /** After the king move and rook hop of a home castle, a square outside the
      four it involves holds what it held before. */
  lemma HomeCastleUntouched(b: BoardState, from: Point, to: Point, king: PieceInfo, q: Point)
    requires Wf(b) && HomeCastle(b, from, to, king)
    requires IsInBounds(q) && q != from && q != to && q != Corner(from, to) && q != Crossed(from, to)
    ensures IsInBounds(from) && IsInBounds(to) && from != to && GetPiece(b, from).Some?
    ensures CastledSquare(b, from, to, q) == GetPiece(b, q)
  {
    HomeCastleShape(b, from, to, king);
  }

  lemma HomeCastleKing(b: BoardState, from: Point, to: Point, moveNumber: int32, king: PieceInfo)
    requires Wf(b) && HomeCastle(b, from, to, king)
    ensures IsInBounds(from) && IsInBounds(to)
    ensures GetPiece(MovePiece(b, Some(from), Some(to), moveNumber), to) ==
            (if king.doublePawnMoveOnMoveNumber == MinusOne(moveNumber) then None
             else Some(king.(hasMoved := true)))
  {
    HomeCastleShape(b, from, to, king);
    CastlingOutcome(b, from, to, moveNumber);
  }

  lemma HomeCastleRook(b: BoardState, from: Point, to: Point, moveNumber: int32, king: PieceInfo)
    requires Wf(b) && HomeCastle(b, from, to, king)
    ensures IsInBounds(from) && IsInBounds(to)
    ensures var r := MovePiece(b, Some(from), Some(to), moveNumber);
            && GetPiece(r, Crossed(from, to)) == GetPiece(b, Corner(from, to))
            && GetPiece(r, from) == None
            && GetPiece(r, Corner(from, to)) == None
  {
    HomeCastleShape(b, from, to, king);
    CastlingOutcome(b, from, to, moveNumber);
  }

  lemma HomeCastleFrame(b: BoardState, from: Point, to: Point, moveNumber: int32, king: PieceInfo)
    requires Wf(b) && HomeCastle(b, from, to, king)
    ensures IsInBounds(from) && IsInBounds(to)
    ensures var r := MovePiece(b, Some(from), Some(to), moveNumber);
            forall q :: IsInBounds(q) && q != from && q != to && q != Corner(from, to) && q != Crossed(from, to) ==>
              GetPiece(r, q) == GetPiece(b, q)
  {
    HomeCastleShape(b, from, to, king);
    CastlingOutcome(b, from, to, moveNumber);
    forall q | IsInBounds(q) && q != from && q != to && q != Corner(from, to) && q != Crossed(from, to)
      ensures CastledSquare(b, from, to, q) == GetPiece(b, q)
    {
      HomeCastleUntouched(b, from, to, king, q);
    }
  }

  /** A double pawn push is recorded for the pawn's team only, and the pawn
      lands stamped with the move number and marked as moved. */
  lemma DoublePawnPushRecorded(b: BoardState, from: Point, to: Point, moveNumber: int32)
    requires Wf(b) && IsInBounds(from) && IsInBounds(to)
    requires from != to && GetPiece(b, from).Some? && IsDoublePawnPush(GetPiece(b, from).value, from, to)
    ensures var pawn := GetPiece(b, from).value;
            var r := MovePiece(b, Some(from), Some(to), moveNumber);
            && GetPiece(r, to) == Some(pawn.(hasMoved := true, doublePawnMoveOnMoveNumber := moveNumber))
            && (pawn.team == White ==> r.lastMovedDoubleWhitePawn == Some(to) &&
                                       r.lastMovedDoubleBlackPawn == b.lastMovedDoubleBlackPawn)
            && (pawn.team == Black ==> r.lastMovedDoubleBlackPawn == Some(to) &&
                                       r.lastMovedDoubleWhitePawn == b.lastMovedDoubleWhitePawn)
  {
    OrdinaryMoveOutcome(b, from, to, moveNumber);
  }

  /** Outside castling, the en-passant step clears (to.x, from.y) exactly when
      the test fires, keeps whatever the relocation left there otherwise, and
      removes no other square. The test looks only at the stamp of the
      occupant, whatever its type or team, and does not need the rank to change. */
  lemma EnPassantClearsExactly(b: BoardState, from: Point, to: Point, moveNumber: int32)
    requires Wf(b) && IsInBounds(from) && IsInBounds(to)
    requires from != to && GetPiece(b, from).Some? && !IsCastling(GetPiece(b, from).value, from, to)
    ensures var r := MovePiece(b, Some(from), Some(to), moveNumber);
            var square := EnPassantSquare(from, to);
            var relocated := MovePieceWithoutSpecialMoves(b, from, to);
            && (EnPassantBefore(b, from, to, moveNumber) ==> GetPiece(r, square) == None)
            && (!EnPassantBefore(b, from, to, moveNumber) && square != to ==>
                  GetPiece(r, square) == GetPiece(relocated, square))
            && (forall q :: IsInBounds(q) && q != square && q != from && q != to ==>
                  GetPiece(r, q) == GetPiece(b, q))
  {
    OrdinaryMoveOutcome(b, from, to, moveNumber);
    RelocationBySquare(b, from, to);
  }

  /** undoMove after any movePiece that does not castle: the mover returns to
      `from` keeping its new flags (if the en-passant test removed the mover
      itself, `from` stays empty), the piece taken from `to` returns, a square cleared by the
      en-passant test stays empty, the last move is swapped, and the double-push
      records stay as the move left them. */
  lemma UndoAfterOrdinaryMove(b: BoardState, from: Point, to: Point, moveNumber: int32)
    requires Wf(b) && IsInBounds(from) && IsInBounds(to)
    requires from != to && GetPiece(b, from).Some? && !IsCastling(GetPiece(b, from).value, from, to)
    ensures var piece := GetPiece(b, from).value;
            var m := MovePiece(b, Some(from), Some(to), moveNumber);
            var u := UndoMove(m);
            var square := EnPassantSquare(from, to);
            var captures := EnPassantBefore(b, from, to, moveNumber);
            && u.Some?
            && (forall q :: IsInBounds(q) ==>
                  GetPiece(u.value, q) ==
                  (if q == from then (if captures && square == to then None else Some(Landed(piece, from, to, moveNumber)))
                   else if q == to then GetPiece(b, to)
                   else if captures && q == square then None
                   else GetPiece(b, q)))
            && u.value.lastFrom == Some(to) && u.value.lastTo == Some(from)
            && u.value.lastRemoved == None
            && u.value.lastMovedDoubleWhitePawn == m.lastMovedDoubleWhitePawn
            && u.value.lastMovedDoubleBlackPawn == m.lastMovedDoubleBlackPawn
  {
    var m := MovePiece(b, Some(from), Some(to), moveNumber);
    OrdinaryMoveOutcome(b, from, to, moveNumber);
    var back := TryMovingPieces(m, to, from);
    RelocationBySquare(m, to, from);
    var u := UndoMove(m).value;
    assert u == back.(pieces := back.pieces[Index(to) := m.lastRemoved]);
    forall q | IsInBounds(q)
      ensures GetPiece(u, q) == if q == to then GetPiece(b, to) else GetPiece(back, q)
    {
      IndexInjective(q, to);
    }
  }

  /** After undoMove of a move that does not castle, both tracked king squares
      are back exactly when the move carried white's tracked king, or landed on
      no tracked king square other than the one it carried. Both relocations
      compare against white's square first. */
  lemma UndoKingTracking(b: BoardState, from: Point, to: Point, moveNumber: int32)
    requires Wf(b) && IsInBounds(from) && IsInBounds(to)
    requires from != to && GetPiece(b, from).Some? && !IsCastling(GetPiece(b, from).value, from, to)
    ensures var u := UndoMove(MovePiece(b, Some(from), Some(to), moveNumber));
            && u.Some?
            && ((u.value.whiteKing == b.whiteKing && u.value.blackKing == b.blackKing) <==>
                (from == b.whiteKing || (to != b.whiteKing && (from == b.blackKing || to != b.blackKing))))
  {
    OrdinaryMoveOutcome(b, from, to, moveNumber);
  }

  /** undoMove restores the position after a move that neither castles, nor
      pushes a pawn two ranks, nor triggers the en-passant test: every square
      holds its old occupant, except that the mover keeps `hasMoved`. King
      tracking is restored when no tracked king square was landed on, and the
      recorded last move ends reversed. */
  lemma UndoRestoresPlainMove(b: BoardState, from: Point, to: Point, moveNumber: int32)
    requires Wf(b) && IsInBounds(from) && IsInBounds(to)
    requires from != to && GetPiece(b, from).Some?
    requires var piece := GetPiece(b, from).value;
             && !IsCastling(piece, from, to)
             && !IsDoublePawnPush(piece, from, to)
             && !EnPassantBefore(b, from, to, moveNumber)
    ensures var piece := GetPiece(b, from).value;
            var u := UndoMove(MovePiece(b, Some(from), Some(to), moveNumber));
            && u.Some?
            && u.value.pieces == b.pieces[Index(from) := Some(piece.(hasMoved := true))]
            && (to != b.whiteKing && to != b.blackKing ==>
                  u.value.whiteKing == b.whiteKing && u.value.blackKing == b.blackKing)
            && u.value.lastFrom == Some(to) && u.value.lastTo == Some(from)
            && u.value.lastMovedDoubleWhitePawn == b.lastMovedDoubleWhitePawn
            && u.value.lastMovedDoubleBlackPawn == b.lastMovedDoubleBlackPawn
  {
    var piece := GetPiece(b, from).value;
    var u := UndoMove(MovePiece(b, Some(from), Some(to), moveNumber)).value;
    UndoAfterOrdinaryMove(b, from, to, moveNumber);
    UndoKingTracking(b, from, to, moveNumber);
    OrdinaryMoveOutcome(b, from, to, moveNumber);
    var expected := b.pieces[Index(from) := Some(piece.(hasMoved := true))];
    forall i | 0 <= i < 64
      ensures u.pieces[i] == expected[i]
    {
      var q := PointFromArrayIndex(i);
      IndexOfPointFromArrayIndex(i);
      IndexInjective(q, from);
    }
  }

  /** undoMove after a castle from the home square brings the king back, marked
      as moved, but leaves the rook where the castle put it; `to` receives what
      the rook's hop had displaced. When the en-passant test removed the king
      (its stamp was the previous move number) there is no king to bring back,
      and the king's origin stays empty. */
  lemma UndoAfterCastlingKeepsRook(b: BoardState, from: Point, to: Point, moveNumber: int32, king: PieceInfo)
    requires Wf(b) && HomeCastle(b, from, to, king)
    ensures var u := UndoMove(MovePiece(b, Some(from), Some(to), moveNumber));
            && u.Some?
            && GetPiece(u.value, from) ==
               (if king.doublePawnMoveOnMoveNumber == MinusOne(moveNumber) then None
                else Some(king.(hasMoved := true)))
            && GetPiece(u.value, Crossed(from, to)) == GetPiece(b, Corner(from, to))
            && GetPiece(u.value, Corner(from, to)) == None
            && GetPiece(u.value, to) == GetPiece(b, Crossed(from, to))
            && (forall q :: IsInBounds(q) && q != from && q != to && q != Corner(from, to) && q != Crossed(from, to) ==>
                  GetPiece(u.value, q) == GetPiece(b, q))
  {
    HomeCastleShape(b, from, to, king);
    var m := MovePiece(b, Some(from), Some(to), moveNumber);
    assert m.lastRemoved == GetPiece(b, Crossed(from, to)) by {
      CastlingOutcome(b, from, to, moveNumber);
    }
    CastlingFromHomeSquare(b, from, to, moveNumber, king);
    var back := TryMovingPieces(m, to, from);
    RelocationBySquare(m, to, from);
    var u := UndoMove(m).value;
    assert u == back.(pieces := back.pieces[Index(to) := m.lastRemoved]);
    forall q | IsInBounds(q)
      ensures GetPiece(u, q) == if q == to then m.lastRemoved else GetPiece(back, q)
    {
      IndexInjective(q, to);
    }
  }
}

=== FILE: castling_finding.dfy ===
// The castling step of movePiece, as written and as evidently intended.
//
// As written, the rook hop always runs on rank 0 for a white king and on
// rank 7 for a black one. When the player is black, the constructor tracks
// the white king on (3, 7) and the black king on (3, 0), as on a board turned
// round. If the pieces stand to match, a castling white king makes the hop
// run on black's back rank, where the black rook jumps onto the black king's
// own square. Where the pieces stand is decided by code outside this model.

module CastlingFinding {
  import opened Wrappers
  import opened JavaInt
  import opened Geometry
  import opened Pieces
  import opened Board
  import opened BoardProperties
  import MoveProperties

  /** A new board for a black player with both kings on their tracked squares
      and the two file-0 rooks beside them on the same ranks: white king (3, 7),
      white rook (0, 7), black king (3, 0), black rook (0, 0). */
  function BlackPlayerCastlingBoard(moveNumber: int32): (b: BoardState)
    ensures Wf(b)
    ensures b == NewBoard(Black, b.pieces)
    ensures b.whiteKing == Point(3, 7) && b.blackKing == Point(3, 0)
    ensures GetPiece(b, Point(3, 7)) == Some(PieceInfo(White, King, false, moveNumber))
    ensures GetPiece(b, Point(0, 7)) == Some(PieceInfo(White, Rook, false, moveNumber))
    ensures GetPiece(b, Point(3, 0)) == Some(PieceInfo(Black, King, false, moveNumber))
    ensures GetPiece(b, Point(0, 0)) == Some(PieceInfo(Black, Rook, false, moveNumber))
    ensures GetPiece(b, Point(1, 7)) == None && GetPiece(b, Point(2, 7)) == None
  {
    var squares := seq(64, (i: int) =>
      if i == 59 then Some(PieceInfo(White, King, false, moveNumber))
      else if i == 56 then Some(PieceInfo(White, Rook, false, moveNumber))
      else if i == 3 then Some(PieceInfo(Black, King, false, moveNumber))
      else if i == 0 then Some(PieceInfo(Black, Rook, false, moveNumber))
      else None);
    NewBoard(Black, squares)
  }

  /** As written: the white king castles (3, 7) to (1, 7) on that board. The
      black rook hops from (0, 0) onto (3, 0) and the black king ends in
      `lastRemoved`, while `blackKing` still names (3, 0). The white rook stays
      in its corner. A square off the king's rank other than `to` has changed. */
  lemma BlackPlayerCastleTakesOwnKing(moveNumber: int32)
    ensures var b := BlackPlayerCastlingBoard(moveNumber);
            var r := MovePiece(b, Some(Point(3, 7)), Some(Point(1, 7)), moveNumber);
            && GetPiece(r, Point(1, 7)) == Some(PieceInfo(White, King, true, moveNumber))
            && GetPiece(r, Point(3, 0)) == Some(PieceInfo(Black, Rook, false, moveNumber))
            && GetPiece(r, Point(0, 0)) == None
            && r.lastRemoved == Some(PieceInfo(Black, King, false, moveNumber))
            && r.blackKing == Point(3, 0)
            && GetPiece(r, Point(0, 7)) == Some(PieceInfo(White, Rook, false, moveNumber))
            && GetPiece(r, Point(3, 0)) != GetPiece(b, Point(3, 0))
  {
    CastleFromDFileSeven(BlackPlayerCastlingBoard(moveNumber), moveNumber);
  }

  /** The castle (3, 7) to (1, 7) of a white king on any board with the black
      king tracked on (3, 0). */
  lemma CastleFromDFileSeven(b: BoardState, moveNumber: int32)
    requires Wf(b) && b.whiteKing == Point(3, 7) && b.blackKing == Point(3, 0)
    requires GetPiece(b, Point(3, 7)) == Some(PieceInfo(White, King, false, moveNumber))
    ensures var r := MovePiece(b, Some(Point(3, 7)), Some(Point(1, 7)), moveNumber);
            && GetPiece(r, Point(1, 7)) == Some(PieceInfo(White, King, true, moveNumber))
            && GetPiece(r, Point(3, 0)) == GetPiece(b, Point(0, 0))
            && GetPiece(r, Point(0, 0)) == None
            && r.lastRemoved == GetPiece(b, Point(3, 0))
            && r.blackKing == Point(3, 0)
            && GetPiece(r, Point(0, 7)) == GetPiece(b, Point(0, 7))
  {
    var from, to := Point(3, 7), Point(1, 7);
    var king := PieceInfo(White, King, false, moveNumber);
    assert CastlingRookSquares(White, true) == (Point(0, 0), Point(3, 0));
    MoveProperties.CastlingOutcome(b, from, to, moveNumber);
    assert EnPassantSquare(from, to) == to;
    assert MoveProperties.AfterKingMove(b, from, to, to) == Some(king);
    assert MoveProperties.CastledSquare(b, from, to, to) == MoveProperties.AfterKingMove(b, from, to, to);
    assert MoveProperties.CastledSquare(b, from, to, Point(3, 0)) == GetPiece(b, Point(0, 0));
    assert MoveProperties.CastledSquare(b, from, to, Point(0, 7)) == GetPiece(b, Point(0, 7));
    assert MoveProperties.AfterKingMove(b, from, to, Point(3, 0)) == GetPiece(b, Point(3, 0));
  }

  /** The evidently intended rook squares: the rook in the corner on the side
      the king moved toward, on the king's own rank, lands on the square the
      king crossed. */
  function IntendedRookSquares(from: Point, to: Point): (squares: (Point, Point))
    requires IsInBounds(from) && IsInBounds(to)
    ensures IsInBounds(squares.0) && IsInBounds(squares.1)
    ensures squares.0.y == squares.1.y == from.y
    ensures squares.0.x == (if from.x > to.x then 0 else 7)
    ensures Abs(from.x - to.x) == 2 ==> Abs(squares.1.x - from.x) == 1 && Abs(squares.1.x - to.x) == 1
  {
    (Point(if from.x > to.x then 0 else 7, from.y), Point((from.x + to.x) / 2, from.y))
  }

  /** A two-file king step from a king's starting square. The written rook
      squares are the intended ones exactly when the player is white. */
  lemma RookSquaresAgreeExactlyForWhitePlayer(playerTeam: Team, team: Team, towardFileZero: bool)
    ensures var kings := InitialKingSquares(playerTeam);
            var from := if team == White then kings.0 else kings.1;
            var to := Point(if towardFileZero then from.x - 2 else from.x + 2, from.y);
            IsInBounds(from) && IsInBounds(to) &&
            (IntendedRookSquares(from, to) == CastlingRookSquares(team, from.x > to.x) <==> playerTeam == White)
  {
  }

  /** The castling step with the intended rook squares. Only squares on the
      king's rank change, and the moved piece stays on `to`, moves along that
      rank, or is kept in `lastRemoved`. */
  function CastleRookIntended(b: BoardState, piece: PieceInfo, from: Point, to: Point): (r: (BoardState, Holder))
    requires Wf(b) && IsInBounds(from) && IsInBounds(to)
    ensures Wf(r.0) && HolderWf(r.1)
    ensures !IsCastling(piece, from, to) ==> r == (b, OnSquare(to))
    ensures forall q :: IsInBounds(q) && q.y != from.y ==> GetPiece(r.0, q) == GetPiece(b, q)
    ensures r.1 == OnSquare(to) || r.1 == InLastRemoved || (r.1.OnSquare? && r.1.square.y == from.y)
  {
    if IsCastling(piece, from, to) then
      var rook := IntendedRookSquares(from, to);
      RelocationBySquare(b, rook.0, rook.1);
      (TryMovingPieces(b, rook.0, rook.1), FollowRelocation(OnSquare(to), rook.0, rook.1))
    else (b, OnSquare(to))
  }

  /** movePiece with the intended castling step; every other step is the
      same. */
  function MovePieceCastleIntended(b: BoardState, from: Option<Point>, to: Option<Point>, moveNumber: int32): (r: BoardState)
    requires Wf(b)
    requires from.Some? && to.Some? ==> IsInBounds(from.value) && IsInBounds(to.value)
    ensures Wf(r)
    ensures from.None? || to.None? ==> r == b
    ensures from.Some? && to.Some? && Mover(b, from.value, to.value).None? ==>
              r == MovePieceWithoutSpecialMoves(b, from.value, to.value)
    ensures from.Some? && to.Some? && Mover(b, from.value, to.value).Some? ==>
              r.lastFrom == from && r.lastTo == to
  {
    if from.None? || to.None? then b
    else
      var f, t := from.value, to.value;
      var moved := MovePieceWithoutSpecialMoves(b, f, t);
      match moved.pieces[Index(t)]
      case None => moved
      case Some(piece) =>
        var castled := CastleRookIntended(moved, piece, f, t);
        var pushed := RecordDoublePawnPush(castled.0, castled.1, piece, f, t, moveNumber);
        var captured := CaptureEnPassant(pushed, castled.1, f, t, EnPassantFires(pushed, f, t, moveNumber));
        UpdateHeld(captured.0, captured.1, MarkMoved).(lastFrom := Some(f), lastTo := Some(t))
  }

  /** Corrected: every move, castling or not, changes only squares on the
      rank of its origin and the destination itself. */
  lemma IntendedMoveStaysOnRank(b: BoardState, from: Point, to: Point, moveNumber: int32)
    requires Wf(b) && IsInBounds(from) && IsInBounds(to)
    ensures var r := MovePieceCastleIntended(b, Some(from), Some(to), moveNumber);
            forall q :: IsInBounds(q) && q.y != from.y && q != to ==> GetPiece(r, q) == GetPiece(b, q)
  {
    var r := MovePieceCastleIntended(b, Some(from), Some(to), moveNumber);
    var moved := MovePieceWithoutSpecialMoves(b, from, to);
    if from != to && GetPiece(b, from).Some? {
      var piece := GetPiece(b, from).value;
      var castled := CastleRookIntended(moved, piece, from, to);
      IntendedSteps(b, from, to, moveNumber);
      forall q | IsInBounds(q) && q.y != from.y && q != to
        ensures GetPiece(r, q) == GetPiece(b, q)
      {
        LaterStepsOffRank(castled.0, castled.1, piece, from, to, moveNumber, q);
        RelocationAt(b, from, to, q);
      }
    } else {
      RelocationBySquare(b, from, to);
    }
  }

  /** The steps of MovePieceCastleIntended when a piece is moved. */
  lemma IntendedSteps(b: BoardState, from: Point, to: Point, moveNumber: int32)
    requires Wf(b) && IsInBounds(from) && IsInBounds(to)
    requires from != to && GetPiece(b, from).Some?
    ensures var piece := GetPiece(b, from).value;
            var castled := CastleRookIntended(MovePieceWithoutSpecialMoves(b, from, to), piece, from, to);
            var pushed := RecordDoublePawnPush(castled.0, castled.1, piece, from, to, moveNumber);
            var captured := CaptureEnPassant(pushed, castled.1, from, to, EnPassantFires(pushed, from, to, moveNumber));
            MovePieceCastleIntended(b, Some(from), Some(to), moveNumber) ==
            UpdateHeld(captured.0, captured.1, MarkMoved).(lastFrom := Some(from), lastTo := Some(to))
  {
    assert MovePieceWithoutSpecialMoves(b, from, to).pieces[Index(to)] == GetPiece(b, from);
  }

  /** The double-push, en-passant and marking steps leave a square off the
      origin's rank alone when the moved piece is held on `to` or on that rank. */
  lemma LaterStepsOffRank(b: BoardState, h: Holder, piece: PieceInfo, from: Point, to: Point, moveNumber: int32, q: Point)
    requires Wf(b) && HolderWf(h) && IsInBounds(from) && IsInBounds(to)
    requires h == OnSquare(to) || h == InLastRemoved || (h.OnSquare? && h.square.y == from.y)
    requires IsInBounds(q) && q.y != from.y && q != to
    ensures var pushed := RecordDoublePawnPush(b, h, piece, from, to, moveNumber);
            var captured := CaptureEnPassant(pushed, h, from, to, EnPassantFires(pushed, from, to, moveNumber));
            GetPiece(UpdateHeld(captured.0, captured.1, MarkMoved), q) == GetPiece(b, q)
  {
    var pushed := RecordDoublePawnPush(b, h, piece, from, to, moveNumber);
    var captured := CaptureEnPassant(pushed, h, from, to, EnPassantFires(pushed, from, to, moveNumber));
    IndexInjective(q, to);
    IndexInjective(q, EnPassantSquare(from, to));
    if h.OnSquare? {
      IndexInjective(q, h.square);
    }
    assert GetPiece(pushed, q) == GetPiece(b, q);
    assert GetPiece(captured.0, q) == GetPiece(pushed, q);
  }

  /** Corrected: the same castle on the black player's board hops the white
      rook from (0, 7) to (2, 7) and leaves the black king and rook where
      they were. */
  lemma BlackPlayerCastleKeepsOtherKing(moveNumber: int32)
    ensures var b := BlackPlayerCastlingBoard(moveNumber);
            var r := MovePieceCastleIntended(b, Some(Point(3, 7)), Some(Point(1, 7)), moveNumber);
            && GetPiece(r, Point(1, 7)) == Some(PieceInfo(White, King, true, moveNumber))
            && GetPiece(r, Point(2, 7)) == Some(PieceInfo(White, Rook, false, moveNumber))
            && GetPiece(r, Point(0, 7)) == None
            && GetPiece(r, Point(3, 0)) == GetPiece(b, Point(3, 0))
            && GetPiece(r, Point(0, 0)) == GetPiece(b, Point(0, 0))
  {
    IntendedCastleFromDFileSeven(BlackPlayerCastlingBoard(moveNumber), moveNumber);
  }

  /** The intended castle (3, 7) to (1, 7) of a white king on any board. */
  lemma IntendedCastleFromDFileSeven(b: BoardState, moveNumber: int32)
    requires Wf(b) && GetPiece(b, Point(3, 7)) == Some(PieceInfo(White, King, false, moveNumber))
    ensures var r := MovePieceCastleIntended(b, Some(Point(3, 7)), Some(Point(1, 7)), moveNumber);
            && GetPiece(r, Point(1, 7)) == Some(PieceInfo(White, King, true, moveNumber))
            && GetPiece(r, Point(2, 7)) == GetPiece(b, Point(0, 7))
            && GetPiece(r, Point(0, 7)) == None
            && GetPiece(r, Point(3, 0)) == GetPiece(b, Point(3, 0))
            && GetPiece(r, Point(0, 0)) == GetPiece(b, Point(0, 0))
  {
    var from, to := Point(3, 7), Point(1, 7);
    IntendedMoveStaysOnRank(b, from, to, moveNumber);
    var king := PieceInfo(White, King, false, moveNumber);
    var rook := IntendedRookSquares(from, to);
    assert rook == (Point(0, 7), Point(2, 7));
    var moved := MovePieceWithoutSpecialMoves(b, from, to);
    RelocationBySquare(b, from, to);
    assert moved.pieces[Index(to)] == Some(king);
    var hopped := TryMovingPieces(moved, rook.0, rook.1);
    RelocationBySquare(moved, rook.0, rook.1);
    assert CastleRookIntended(moved, king, from, to) == (hopped, OnSquare(to));
    assert RecordDoublePawnPush(hopped, OnSquare(to), king, from, to, moveNumber) == hopped;
    assert GetPiece(hopped, to) == Some(king);
    assert !EnPassantFires(hopped, from, to, moveNumber);
    var done := UpdateHeld(hopped, OnSquare(to), MarkMoved);
    assert MovePieceCastleIntended(b, Some(from), Some(to), moveNumber) ==
           done.(lastFrom := Some(from), lastTo := Some(to));
    IndexInjective(to, rook.0);
    IndexInjective(to, rook.1);
  }
}

=== FILE: findings.dfy ===
// The en-passant step of movePiece, as written and as evidently intended.
//
// As written, the step removes whatever stands on (to.x, from.y) whenever the
// move changes file and that piece carries the previous move number as its
// double-push stamp. The mover's kind, the victim's kind and team, and the
// length of the step are never consulted, so a knight that jumps past a pawn
// which has just double-pushed removes that pawn.

module EnPassantFinding {
  import opened Wrappers
  import opened JavaInt
  import opened Geometry
  import opened Pieces
  import opened Board
  import opened BoardProperties
  import opened MoveProperties
  import opened Material

  /** A black knight on c4 and, two files to its right, a white pawn on e4
      that double-pushed on the previous move number. */
  function KnightBesidePushedPawn(moveNumber: int32): (b: BoardState)
    ensures Wf(b)
    ensures GetPiece(b, Point(2, 3)) == Some(PieceInfo(Black, Knight, true, moveNumber))
    ensures GetPiece(b, Point(4, 3)) == Some(PieceInfo(White, Pawn, true, MinusOne(moveNumber)))
    ensures GetPiece(b, Point(4, 4)) == None
  {
    var knight := PieceInfo(Black, Knight, true, moveNumber);
    var pawn := PieceInfo(White, Pawn, true, MinusOne(moveNumber));
    var squares := seq(64, (i: int) => if i == 26 then Some(knight) else if i == 28 then Some(pawn) else None);
    BoardState(squares, Point(4, 0), Point(4, 7), None, None, None, Some(Point(4, 3)), None)
  }

  /** As written: the knight's jump c4-e5 removes the white pawn on e4, which
      neither stands on the knight's path nor may be taken en passant by a
      knight. */
  lemma KnightMoveRemovesBystanderPawn(moveNumber: int32)
    ensures var b := KnightBesidePushedPawn(moveNumber);
            var r := MovePiece(b, Some(Point(2, 3)), Some(Point(4, 4)), moveNumber);
            && GetPiece(b, Point(4, 3)).Some?
            && GetPiece(r, Point(4, 3)) == None
  {
    var b := KnightBesidePushedPawn(moveNumber);
    var from, to := Point(2, 3), Point(4, 4);
    assert Mover(b, from, to) == Some(PieceInfo(Black, Knight, true, moveNumber));
    assert EnPassantBefore(b, from, to, moveNumber);
    EnPassantClearsExactly(b, from, to, moveNumber);
  }

  /** The evidently intended en-passant test, read on the board before the
      move: a pawn steps one square diagonally onto an empty square, and the
      square beside its origin on the destination file holds an enemy pawn
      that double-pushed on the previous move number. */
  predicate IntendedEnPassant(b: BoardState, from: Point, to: Point, moveNumber: int32)
    requires Wf(b) && IsInBounds(from) && IsInBounds(to)
  {
    var mover := GetPiece(b, from);
    var victim := GetPiece(b, EnPassantSquare(from, to));
    && mover.Some? && mover.value.kind == Pawn
    && Abs(to.x - from.x) == 1 && Abs(to.y - from.y) == 1
    && GetPiece(b, to) == None
    && victim.Some? && victim.value.kind == Pawn
    && victim.value.team == Opponent(mover.value.team)
    && victim.value.doublePawnMoveOnMoveNumber == MinusOne(moveNumber)
  }

  /** movePiece with the intended en-passant test in place of the written one;
      every other step is the same. */
  function MovePieceIntended(b: BoardState, from: Option<Point>, to: Option<Point>, moveNumber: int32): (r: BoardState)
    requires Wf(b)
    requires from.Some? && to.Some? ==> IsInBounds(from.value) && IsInBounds(to.value)
    ensures Wf(r)
    ensures from.None? || to.None? ==> r == b
    ensures from.Some? && to.Some? && Mover(b, from.value, to.value).None? ==>
              r == MovePieceWithoutSpecialMoves(b, from.value, to.value)
    ensures from.Some? && to.Some? && Mover(b, from.value, to.value).Some? ==>
              r.lastFrom == from && r.lastTo == to
  {
    if from.None? || to.None? then b
    else
      var f, t := from.value, to.value;
      var moved := MovePieceWithoutSpecialMoves(b, f, t);
      match moved.pieces[Index(t)]
      case None => moved
      case Some(piece) =>
        var castled := CastleRook(moved, piece, f, t);
        var pushed := RecordDoublePawnPush(castled.0, castled.1, piece, f, t, moveNumber);
        var captured := CaptureEnPassant(pushed, castled.1, f, t, IntendedEnPassant(b, f, t, moveNumber));
        UpdateHeld(captured.0, captured.1, MarkMoved).(lastFrom := Some(f), lastTo := Some(t))
  }

  /** The squares after a move that does not castle, under the intended test. */
  lemma IntendedMovePieces(b: BoardState, from: Point, to: Point, moveNumber: int32)
    requires Wf(b) && IsInBounds(from) && IsInBounds(to)
    requires from != to && GetPiece(b, from).Some? && !IsCastling(GetPiece(b, from).value, from, to)
    ensures var piece := GetPiece(b, from).value;
            var moved := MovePieceWithoutSpecialMoves(b, from, to);
            var r := MovePieceIntended(b, Some(from), Some(to), moveNumber);
            var square := EnPassantSquare(from, to);
            var landed := moved.pieces[Index(to) := Some(Landed(piece, from, to, moveNumber))];
            r.pieces == (if IntendedEnPassant(b, from, to, moveNumber) then landed[Index(square) := None] else landed)
  {
    var piece := GetPiece(b, from).value;
    var moved := MovePieceWithoutSpecialMoves(b, from, to);
    var pushed := RecordDoublePawnPush(moved, OnSquare(to), piece, from, to, moveNumber);
    var fires := IntendedEnPassant(b, from, to, moveNumber);
    FinalStageOrdinary(b, from, to, moveNumber, fires);
    var captured := CaptureEnPassant(pushed, OnSquare(to), from, to, fires);
    assert CastleRook(moved, piece, from, to) == (moved, OnSquare(to));
    assert MovePieceIntended(b, Some(from), Some(to), moveNumber) ==
           UpdateHeld(captured.0, captured.1, MarkMoved).(lastFrom := Some(from), lastTo := Some(to));
  }

  /** Corrected: apart from the mover's own two squares, a move that does not
      castle changes exactly one square or none, and it empties a square only
      when a pawn takes an enemy pawn that double-pushed on the previous move,
      one diagonal step away. */
  lemma IntendedCaptureIsEnPassant(b: BoardState, from: Point, to: Point, moveNumber: int32)
    requires Wf(b) && IsInBounds(from) && IsInBounds(to)
    requires from != to && GetPiece(b, from).Some? && !IsCastling(GetPiece(b, from).value, from, to)
    ensures var mover := GetPiece(b, from).value;
            var r := MovePieceIntended(b, Some(from), Some(to), moveNumber);
            var square := EnPassantSquare(from, to);
            && (forall q :: IsInBounds(q) && q != from && q != to && GetPiece(r, q) != GetPiece(b, q) ==>
                  && q == square
                  && GetPiece(r, q) == None
                  && mover.kind == Pawn
                  && GetPiece(b, q).Some? && GetPiece(b, q).value.kind == Pawn
                  && GetPiece(b, q).value.team == Opponent(mover.team)
                  && GetPiece(b, q).value.doublePawnMoveOnMoveNumber == MinusOne(moveNumber))
            && (IntendedEnPassant(b, from, to, moveNumber) ==> GetPiece(r, square) == None)
  {
    var r := MovePieceIntended(b, Some(from), Some(to), moveNumber);
    var square := EnPassantSquare(from, to);
    IntendedMovePieces(b, from, to, moveNumber);
    RelocationBySquare(b, from, to);
    forall q | IsInBounds(q) && q != from && q != to && GetPiece(r, q) != GetPiece(b, q)
      ensures q == square && IntendedEnPassant(b, from, to, moveNumber)
    {
      IndexInjective(q, to);
      IndexInjective(q, square);
    }
    if IntendedEnPassant(b, from, to, moveNumber) {
      IndexInjective(square, to);
    }
  }

  /** Corrected: a move that does not castle loses exactly one piece when it
      lands on an occupied square or takes en passant, and none otherwise. */
  lemma IntendedMoveCount(b: BoardState, from: Point, to: Point, moveNumber: int32)
    requires Wf(b) && IsInBounds(from) && IsInBounds(to)
    requires from != to && GetPiece(b, from).Some? && !IsCastling(GetPiece(b, from).value, from, to)
    ensures Count(b.pieces) - Count(MovePieceIntended(b, Some(from), Some(to), moveNumber).pieces) ==
            (if GetPiece(b, to).Some? || IntendedEnPassant(b, from, to, moveNumber) then 1 else 0)
  {
    var piece := GetPiece(b, from).value;
    var moved := MovePieceWithoutSpecialMoves(b, from, to);
    var landed := moved.pieces[Index(to) := Some(Landed(piece, from, to, moveNumber))];
    IntendedMovePieces(b, from, to, moveNumber);
    RelocationCount(b, from, to);
    CountUpdate(moved.pieces, Index(to), Some(Landed(piece, from, to, moveNumber)));
    if IntendedEnPassant(b, from, to, moveNumber) {
      var square := EnPassantSquare(from, to);
      assert landed[Index(square)].Some? by {
        IndexInjective(square, to);
        IndexInjective(square, from);
      }
      CountUpdate(landed, Index(square), None);
    }
  }

  /** Corrected: the same knight jump leaves the pawn on e4 where it was. */
  lemma KnightMoveKeepsBystanderPawn(moveNumber: int32)
    ensures var b := KnightBesidePushedPawn(moveNumber);
            var r := MovePieceIntended(b, Some(Point(2, 3)), Some(Point(4, 4)), moveNumber);
            GetPiece(r, Point(4, 3)) == GetPiece(b, Point(4, 3))
  {
    var b := KnightBesidePushedPawn(moveNumber);
    var from, to := Point(2, 3), Point(4, 4);
    assert Mover(b, from, to) == Some(PieceInfo(Black, Knight, true, moveNumber));
    IntendedCaptureIsEnPassant(b, from, to, moveNumber);
  }
}

=== FILE: geometry.dfy ===
/** Board coordinates: points, the bounds test, and the array layout
    `x + 8 * y` of the 64 squares. */
module Geometry {
  import opened JavaInt

  /** A square as a file `x` and a rank `y`; off-board values are representable. */
  datatype Point = Point(x: int, y: int)

  function Abs(v: int): nat {
    if v < 0 then -v else v
  }

  /** isInBounds: both coordinates lie in 0..7. */
  predicate IsInBounds(p: Point) {
    p.x < 8 && p.x >= 0 && p.y < 8 && p.y >= 0
  }

  /** The array slot of an on-board square. */
  function Index(p: Point): (i: nat)
    requires IsInBounds(p)
    ensures i < 64
  {
    p.x + p.y * 8
  }

  /** getPointFromArrayIndex, with Java's truncating `%` and `/`: any `int` is
      accepted, and exactly the slots 0..63 give on-board squares. */
  function PointFromArrayIndex(index: int): (p: Point)
    ensures IsInBounds(p) <==> 0 <= index < 64
  {
    Point(JavaRem8(index), JavaDiv8(index))
  }

  /** Decoding a slot and encoding the square again gives the slot back. */
  lemma IndexOfPointFromArrayIndex(i: int)
    requires 0 <= i < 64
    ensures IsInBounds(PointFromArrayIndex(i))
    ensures Index(PointFromArrayIndex(i)) == i
  {
    var p := PointFromArrayIndex(i);
    assert i == 8 * p.y + p.x;
  }

  /** Encoding a square and decoding the slot gives the square back. */
  lemma PointFromArrayIndexOfIndex(p: Point)
    requires IsInBounds(p)
    ensures PointFromArrayIndex(Index(p)) == p
  {
    var i := Index(p);
    var q := PointFromArrayIndex(i);
    assert 8 * q.y <= i < 8 * q.y + 8;
    assert q.y == p.y;
  }

  /** Distinct on-board squares occupy distinct slots. */
  lemma IndexInjective(p: Point, q: Point)
    requires IsInBounds(p) && IsInBounds(q)
    ensures Index(p) == Index(q) <==> p == q
  {
    if Index(p) == Index(q) {
      PointFromArrayIndexOfIndex(p);
      PointFromArrayIndexOfIndex(q);
    }
  }

  /** The on-board squares are exactly the images of the 64 slots. */
  lemma InBoundsIffSlot(p: Point)
    ensures IsInBounds(p) <==> exists i :: 0 <= i < 64 && PointFromArrayIndex(i) == p
  {
    if IsInBounds(p) {
      PointFromArrayIndexOfIndex(p);
      assert PointFromArrayIndex(Index(p)) == p;
    }
  }
}

=== FILE: java_int.dfy ===
/** The parts of Java's 32-bit `int` arithmetic that the board code relies on. */
module JavaInt {

  const IntMin: int := -0x8000_0000
  const IntMax: int := 0x7fff_ffff

  /** A Java `int`. */
  newtype int32 = x: int | -0x8000_0000 <= x < 0x8000_0000

  /** Java's `n - 1` on an `int`: the exact difference when it fits, and the
      wrap-around from `Integer.MIN_VALUE` to `Integer.MAX_VALUE` when it does not.
      The result is the only `int` congruent to `n - 1` modulo 2^32. */
  function MinusOne(n: int32): (r: int32)
    ensures (r as int - (n as int - 1)) % 0x1_0000_0000 == 0
    ensures r != n
  {
    if n as int == IntMin then IntMax as int32 else n - 1
  }

  /** Java's `a / 8` on an `int`: the quotient is rounded toward zero. */
  function JavaDiv8(a: int): (q: int)
    ensures 0 <= a ==> 0 <= q && 8 * q <= a < 8 * q + 8
    ensures a < 0 ==> q <= 0 && 8 * q - 8 < a <= 8 * q
  {
    if a >= 0 then a / 8 else -((-a) / 8)
  }

  /** Java's `a % 8` on an `int`: the remainder takes the sign of the dividend. */
  function JavaRem8(a: int): (r: int)
    ensures a == 8 * JavaDiv8(a) + r
    ensures 0 <= a ==> 0 <= r < 8
    ensures a < 0 ==> -8 < r <= 0
  {
    a - 8 * JavaDiv8(a)
  }
}

=== FILE: material.dfy ===
/** How many pieces the board holds, and how each operation changes that
    number. None of the operations creates a piece. A raw relocation loses
    exactly the occupant of `to`, which it keeps in `lastRemoved`. A move that
    does not castle loses, in addition, one piece when the en-passant test
    fires. */
module Material {
  import opened Wrappers
  import opened JavaInt
  import opened Geometry
  import opened Pieces
  import opened Board
  import opened MoveProperties

  /** The number of occupied squares. */
  function Count(squares: seq<Option<PieceInfo>>): (n: nat)
    ensures n <= |squares|
    ensures n == 0 <==> forall i :: 0 <= i < |squares| ==> squares[i].None?
  {
    if |squares| == 0 then 0
    else (if squares[0].Some? then 1 else 0) + Count(squares[1..])
  }

  /** Writing one square changes the count by what left and what arrived. */
  lemma {:induction false} CountUpdate(squares: seq<Option<PieceInfo>>, i: int, v: Option<PieceInfo>)
    requires 0 <= i < |squares|
    ensures Count(squares[i := v]) ==
            Count(squares) - (if squares[i].Some? then 1 else 0) + (if v.Some? then 1 else 0)
  {
    if i == 0 {
      assert squares[i := v][1..] == squares[1..];
    } else {
      assert squares[i := v][1..] == squares[1..][i - 1 := v];
      CountUpdate(squares[1..], i - 1, v);
    }
  }

  /** removePiece loses one piece exactly when the square was occupied. */
  lemma RemovePieceCount(b: BoardState, location: Point)
    requires Wf(b)
    ensures Count(RemovePiece(b, location).pieces) ==
            Count(b.pieces) - (if GetPiece(b, location).Some? then 1 else 0)
  {
    if IsInBounds(location) {
      CountUpdate(b.pieces, Index(location), None);
    }
  }

  /** A raw relocation loses exactly the old occupant of `to`, and keeps it
      in `lastRemoved`: with `lastRemoved` counted, nothing is lost. When
      `from == to` the occupant of that square is the one lost. */
  lemma RelocationCount(b: BoardState, from: Point, to: Point)
    requires Wf(b) && IsInBounds(from) && IsInBounds(to)
    ensures var r := MovePieceWithoutSpecialMoves(b, from, to);
            && Count(r.pieces) == Count(b.pieces) - (if GetPiece(b, to).Some? then 1 else 0)
            && Count(r.pieces) + (if r.lastRemoved.Some? then 1 else 0) == Count(b.pieces)
  {
    var placed := b.pieces[Index(to) := b.pieces[Index(from)]];
    CountUpdate(b.pieces, Index(to), b.pieces[Index(from)]);
    CountUpdate(placed, Index(from), None);
    IndexInjective(from, to);
  }

  /** A move that does not castle loses the old occupant of `to`, and one
      more piece when the en-passant test fires. */
  lemma OrdinaryMoveCount(b: BoardState, from: Point, to: Point, moveNumber: int32)
    requires Wf(b) && IsInBounds(from) && IsInBounds(to)
    requires from != to && GetPiece(b, from).Some? && !IsCastling(GetPiece(b, from).value, from, to)
    ensures Count(MovePiece(b, Some(from), Some(to), moveNumber).pieces) ==
            Count(b.pieces) - (if GetPiece(b, to).Some? then 1 else 0)
                            - (if EnPassantBefore(b, from, to, moveNumber) then 1 else 0)
  {
    var piece := GetPiece(b, from).value;
    var moved := MovePieceWithoutSpecialMoves(b, from, to);
    var landed := moved.pieces[Index(to) := Some(Landed(piece, from, to, moveNumber))];
    OrdinaryMovePieces(b, from, to, moveNumber);
    RelocationCount(b, from, to);
    CountUpdate(moved.pieces, Index(to), Some(Landed(piece, from, to, moveNumber)));
    if EnPassantBefore(b, from, to, moveNumber) {
      var square := EnPassantSquare(from, to);
      assert landed[Index(square)].Some? by {
        IndexInjective(square, to);
        IndexInjective(square, from);
      }
      CountUpdate(landed, Index(square), None);
    }
  }
}

=== FILE: pieces.dfy ===
/** Piece descriptions, limited to the fields the board code reads and writes. */
module Pieces {
  import opened JavaInt

  datatype Team = White | Black

  datatype PieceType = Pawn | Knight | Bishop | Rook | Queen | King

  /** A piece. `hasMoved` and `doublePawnMoveOnMoveNumber` are mutable fields of
      the source's piece object; here a write produces an updated value. The stamp
      is a Java `int` whose initial value is not known, so no default is assumed. */
  datatype PieceInfo = PieceInfo(
    team: Team,
    kind: PieceType,
    hasMoved: bool,
    doublePawnMoveOnMoveNumber: int32)

  function Opponent(team: Team): Team {
    if team == White then Black else White
  }
}

=== FILE: wrappers.dfy ===
/** Optional values: the model's stand-in for a Java reference that may be null. */
module Wrappers {

  datatype Option<+T> = None | Some(value: T)
}
